=== FILE: README.md ===
# Commune Health backend — a Dafny model of its core

This project models the decision and bookkeeping core of a Django backend for
direct-primary-care memberships: employers enrol employees (and their
dependents) in provider plans, brokers manage enrollments, and payments to
providers and commissions to brokers are recorded as transactions.

The model has three parts.

- **The enrollment ledger** (`ledger.dfy`, `enrollment_views.dfy`). It covers:
  - provider plans, enrollments, dependent enrollments, transactions and their itemised details;
  - the status enumerations and their defaults;
  - the schema's rules (foreign keys, `unique_together`, `unique`, `DecimalField(10, 2)`, CASCADE and PROTECT), gathered into one invariant `Ledger.Valid` that every insert and delete preserves;
  - the endpoints `add_dependent`, `remove_dependent` and `provider_revenue`.

  Amounts are integer cents and dates are day numbers.
- **The audit trail** (`audit.dfy`, `audit_wrappers.dfy`). It covers:
  - the two append-only logs and the two service calls that build records;
  - the `audit_action` and `audit_security` decorators;
  - the audit middleware with its status-code classification.

  The wrapped view's outcome is a parameter.
- **Request gating** (`gating.dfy`). It covers:
  - the JWT and email-verification middleware of `core`;
  - the JWT middleware of `accounts`;
  - request logging's level split;
  - the `require_user_type` and `require_object_ownership` decorators;
  - the role and ownership permission classes.

  Token validation, token decoding and the user lookup are parameters.

Shared vocabulary lives in `base.dfy` (module `Http`):
- a Python call's outcome, `Returned(v)` or `Raised(exc)`;
- requests, responses and users;
- `str.split(' ')`.

`table.dfy` (module `Table`) holds tables as sequences of keyed rows.

The code has no plan capacity limits, no enrollment status transitions, no transaction issuance workflow and no refunds. Only the status enumerations exist, and they are modelled.

`Http.User` carries an `emailVerified` flag. The email check reads that attribute, but the user model in accounts/models.py:4-23 does not declare it. The flag stands for the attribute the check evidently expects (see Findings).

## Model

| member | source | states |
|---|---|---|
| Http.Split | core/middleware.py:51 | Python's `split(' ')` always yields at least one field, and no field contains the separator |
| Http.SplitJoin | core/middleware.py:51 | joining the fields of a split with the separator gives back the original string |
| Http.SplitFirstField | core/middleware.py:51 | the first field of a split is the text before the first separator |
| Http.SplitAfterField | core/middleware.py:51 | a separator-free field followed by the separator splits off as the first field, and the rest splits independently |
| Http.BearerToken | core/middleware.py:50-53 | a header starting with "Bearer " always has a second field, so the guarded IndexError cannot occur; the token is the text after the prefix up to the next space |
| Ledger.EnrollmentStatus.Code | enrollment/models.py:27-31 | each enrollment status stores one of the four codes, and reading that code back gives the same status |
| Ledger.ParseEnrollmentStatus | enrollment/models.py:27-31 | a stored code is accepted exactly when it is one of PENDING, ACTIVE, INACTIVE, CANCELLED |
| Ledger.TransactionType.Code | enrollment/models.py:88-90 | a transaction type stores PROVIDER or BROKER, and reading the code back gives the same type |
| Ledger.ParseTransactionType | enrollment/models.py:88-90 | a stored type code is accepted exactly when it is PROVIDER or BROKER |
| Ledger.TransactionStatus.Code | enrollment/models.py:92-96 | a transaction status stores one of its four codes, and reading the code back gives the same status |
| Ledger.ParseTransactionStatus | enrollment/models.py:92-96 | a stored status code is accepted exactly when it is PENDING, COMPLETED, FAILED or REFUNDED |
| Ledger.CodesInjective | enrollment/models.py:27-96 | distinct members of each enumeration store distinct codes |
| Ledger.EmptyStoreValid | enrollment/models.py:4-165 | the empty database satisfies every schema rule |
| Ledger.CreatePlan | enrollment/models.py:4-20 | a plan is saved exactly when its monthly amount fits ten digits with two decimals; the saved plan gets a fresh key, is appended, and the store stays valid |
| Ledger.CreateEnrollment | enrollment/models.py:25-56 | an enrollment is saved exactly when its plan exists; its status defaults to PENDING, its end date may be absent, and it gets a fresh key; only the enrollments table grows and the store stays valid |
| Ledger.CreateDependentEnrollment | enrollment/models.py:63-84 | a dependent row is saved exactly when its enrollment exists and the (enrollment, dependent) pair is new, even if the earlier row for the pair has ended; the store stays valid |
| Ledger.CreateTransaction | enrollment/models.py:86-132 | a transaction is saved exactly when its enrollment exists, its reference id is unused and its amount fits the column; the store stays valid |
| Ledger.NewTransaction | enrollment/models.py:111-133 | a transaction created without a status is PENDING and one with a status keeps it; notes left out are empty and given notes are kept; provider, broker and the billing period are what the request gives, provider and broker absent when left out |
| Ledger.NewTransactionSavedPending | enrollment/models.py:111-133 | a create request without a status, for an existing enrollment with an unused reference id and an amount that fits, is saved, and the stored row's status is PENDING |
| Ledger.CreateDetail | enrollment/models.py:147-165 | a detail line is saved exactly when its transaction exists, its dependent enrollment (if any) exists and its amount fits; the store stays valid |
| Ledger.DeletePlan | enrollment/models.py:33-37 | deleting a plan is refused exactly when an enrollment references it; otherwise only that plan's row goes and the store stays valid |
| Ledger.PlanRemovalValid | enrollment/models.py:33-37 | removing a plan that no enrollment uses leaves every reference resolvable and keeps every schema rule |
| Ledger.DeleteEnrollment | enrollment/models.py:63-102 | deleting an enrollment is refused exactly when a transaction references it or a detail line references one of its dependent rows; otherwise it and all its dependent rows go, nothing else changes, and the store stays valid |
| Ledger.EnrollmentCascadeValid | enrollment/models.py:63-102 | removing an unbilled enrollment together with its dependent rows leaves every reference resolvable and every uniqueness rule intact |
| Ledger.SubsequencePairsUnique | enrollment/models.py:83-84 | removing dependent rows never creates a duplicate (enrollment, dependent) pair |
| Ledger.DeleteDependentEnrollment | enrollment/models.py:159-165 | deleting a dependent enrollment is refused exactly when a detail line references it; otherwise only that row goes and the store stays valid |
| Ledger.DependentRemovalValid | enrollment/models.py:159-165 | removing a dependent row that no detail line references leaves every reference resolvable and keeps every schema rule |
| Ledger.DeleteTransaction | enrollment/models.py:149-153 | deleting a transaction removes it and exactly its detail lines, nothing else changes, and the store stays valid |
| Ledger.TransactionCascadeValid | enrollment/models.py:149-153 | removing a transaction with its detail lines leaves every reference resolvable |
| Ledger.SubsequenceReferencesUnique | enrollment/models.py:132 | removing transactions never creates a duplicate reference id |
| Ledger.DeleteDetail | enrollment/models.py:147-165 | deleting a detail line removes only that line and the store stays valid |
| EnrollmentViews.VisibleIsStored | enrollment/views.py:44-49 | a visible enrollment exists, and without the `employee` parameter every existing enrollment is visible |
| EnrollmentViews.FilterHidesOtherEmployees | enrollment/views.py:44-49 | in a valid store, the `employee` parameter hides exactly the enrollments of other employees |
| EnrollmentViews.AddDependent | enrollment/views.py:51-60 | 404 when `get_object()` does not find the enrollment and 400 for an invalid payload, both changing nothing; 201 exactly when the pair is new, and then exactly one row bound to this enrollment is appended; an existing pair raises IntegrityError and changes nothing; the store stays valid |
| EnrollmentViews.AddDependentAsWritten | enrollment/views.py:55-58 | with the dependent field read-only, every valid payload raises IntegrityError and nothing is created; the 404 and 400 answers agree with the intended endpoint |
| EnrollmentViews.AddDependentWitness | enrollment/views.py:55-58 | a concrete valid store and payload answered 201 as intended that raise as written |
| EnrollmentViews.RemoveDependent | enrollment/views.py:62-81 | 404 exactly when `get_object()` does not find the enrollment or it has no open row for the dependent; 200 exactly when there is one open row and the end date parses, and then only that row's end date changes, to the supplied value, unchecked against its start date; a malformed date string raises ValidationError and a date that is not a string raises TypeError; rows are never deleted, nothing else changes, and a valid store stays valid and never has two open rows |
| EnrollmentViews.OpenRowsDistinct | enrollment/models.py:83-84 | two open rows for the same pair cannot both exist in a valid store |
| EnrollmentViews.ClosingKeepsValid | enrollment/views.py:74-75 | changing one dependent row's end date keeps every schema rule |
| EnrollmentViews.SecondRemovalFindsNothing | enrollment/views.py:69-81 | in any store, once the only open row for a dependent has an end date, no open row remains for that dependent, so a second removal answers 404 |
| EnrollmentViews.RevenueNullIffNoneCounted | enrollment/views.py:113-118 | the revenue sum is NULL exactly when no transaction passes the filter |
| EnrollmentViews.RevenueIgnoresUncounted | enrollment/views.py:113-117 | adding a transaction the filter rejects leaves the revenue unchanged |
| EnrollmentViews.RevenueAddsCounted | enrollment/views.py:113-118 | adding a completed provider payment inside the range adds its amount to the revenue |
| EnrollmentViews.PartialOverlapExcluded | enrollment/views.py:116-117 | a transaction whose billing period only partly overlaps the range does not change the revenue |
| EnrollmentViews.ProviderRevenue | enrollment/views.py:107-120 | a missing or malformed date raises, the end date's lookup deciding first: ValueError for a missing date, ValidationError for a malformed string and TypeError for a value that is not a string; otherwise the result is the SQL sum of the amounts of completed provider payments whose whole period lies in the range, NULL exactly when none does; nothing is written |
| EnrollmentViews.ProviderRevenueAsWritten | enrollment/views.py:113-118 | every call raises; with two valid dates the error is NameError, and otherwise it is the same date error as the intended report's |
| EnrollmentViews.RevenueNameErrorWitness | enrollment/views.py:118 | one counted transaction whose intended revenue is its amount, while the code as written raises NameError |
| Audit.LogAction | audit/services.py:8-37 | raises ValueError, writing nothing, exactly when AnonymousUser is passed; otherwise appends exactly one record and nothing else: the status is the given one, SUCCESS when none is given; the user type is the user's own or ANONYMOUS; details default to an empty map; client address and agent are set only from a given request, an empty address being stored as NULL; the target only from a given object, keeping its id |
| Audit.LogSecurityEvent | audit/services.py:40-58 | raises, writing nothing, exactly when AnonymousUser is passed or the request lacks the NOT NULL client address or agent, or has an empty address, which is saved as NULL; the error is ValueError for AnonymousUser and IntegrityError for a missing client field; otherwise appends exactly one event with the given action, the given severity (INFO when none is given), the given user, and the request's non-empty address and agent |
| Audit.EmptyAddressNotStored | audit/models.py:57 | an empty client address counts as none in both logs: the action record stores no address and the security event is refused with IntegrityError, writing nothing |
| Audit.ForgetUser | audit/models.py:20-56 | deleting a user clears that user from every record of both logs; no record is removed and nothing else in a record changes |
| Audit.InsertByTime | audit/models.py:37-38 | placing a record into a newest-first listing keeps it newest first and adds exactly that record |
| Audit.NewestFirst | audit/models.py:37-38 | the AuditLog listing is ordered newest timestamp first and holds exactly the stored records |
| AuditWrappers.RequestUser | audit/decorators.py:15 | reading `request.user` raises AttributeError exactly when no middleware set it |
| AuditWrappers.AuditFailure | audit/decorators.py:23-33 | for an authenticated user, exactly one ERROR record without a target is appended, carrying `str(e)`, the action type and the request details, and the exception that escapes is `e` itself; for any other request nothing is written and the failure to write the record escapes instead (AttributeError without a user attribute, ValueError for AnonymousUser) |
| AuditWrappers.AuditAction | audit/decorators.py:5-36 | for an authenticated user exactly one record is appended: SUCCESS with the view's target when the view and the target lookup succeed, with the result passed through unchanged; ERROR with `str(e)` and no target when either raises (also when only the target lookup raises), with that exception re-raised; the security log is untouched |
| AuditWrappers.AuditSecurity | audit/decorators.py:38-58 | nothing is written when the view returns, and its result passes through; when it raises, at most one PERMISSION_DENIED event with the configured severity (INFO when none is configured), the error text and the request's user when it is authenticated (no user otherwise) is appended, always when it can be stored, and an exception always escapes; when it cannot be stored (AnonymousUser, or a missing or empty client address or a missing agent) nothing is written and the storage error escapes, ValueError or IntegrityError respectively |
| AuditWrappers.SecurityActionFor | audit/middleware.py:25 | the recorded action is PERMISSION_DENIED exactly for status 403 and ERROR otherwise; only the former is a declared choice |
| AuditWrappers.SeverityFor | audit/middleware.py:33 | severity is HIGH exactly for 401 and 403 and MEDIUM for every other status |
| AuditWrappers.ClassificationAgrees | audit/middleware.py:25-33 | the action and severity of a security event agree: PERMISSION_DENIED is always HIGH, a HIGH generic error is exactly a 401, and MEDIUM is always a generic error |
| AuditWrappers.AccessRecord | audit/middleware.py:8-18 | an authenticated request appends exactly one SUCCESS ACCESS record with method and path; any other request writes nothing |
| AuditWrappers.SecurityUserAsWritten | audit/middleware.py:27 | the user passed on is `request.user` as the view left it: AnonymousUser exactly when that is anonymous, None exactly when the attribute is missing, otherwise that user |
| AuditWrappers.SecurityUser | audit/middleware.py:27 | the corrected user passed on is never AnonymousUser, and is the user row exactly when the request is authenticated after the view |
| AuditWrappers.AuditMiddlewareWith | audit/middleware.py:7-36 | given the user it logs, the middleware writes the ACCESS record, returns the handler's outcome unchanged below 400, and at 400 or above appends one event with the classified action, severity and details, unless the event cannot be stored |
| AuditWrappers.AuditMiddlewareAsWritten | audit/middleware.py:22-36 | `request.user` is read before the view (ACCESS record) and again after it (security event); it agrees with the corrected middleware except on an error response whose request is anonymous after the view, where it raises ValueError, loses the response and stores no event |
| AuditWrappers.AuditMiddleware | audit/middleware.py:7-36 | exactly one ACCESS record for an authenticated request and none otherwise; no security event below 400; exactly one at 400 or above, given a non-empty client address and an agent, PERMISSION_DENIED exactly for 403 and HIGH exactly for 401 and 403, recorded under the request's user as the view left it when that user is authenticated and under no user otherwise; the response is returned unchanged |
| AuditWrappers.ViewAuthenticatedErrorLogged | audit/middleware.py:8-34 | a request that is anonymous before the view and authenticated by it gets no ACCESS record, and its 404 is stored as one MEDIUM ERROR event under that user, with the response returned |
| AuditWrappers.AnonymousErrorWitness | audit/middleware.py:23-34 | an unauthenticated request answered 401: as written it raises ValueError and stores nothing, corrected it returns the 401 and stores one event |
| Gating.CoreJwtGate | core/middleware.py:33-57 | exempt paths pass uninspected; a missing or non-Bearer header gets 401 "not provided"; otherwise the request passes exactly when the token after "Bearer " is accepted, and is answered 401 "Invalid or expired token" when it is not |
| Gating.EmailExemptionsDropHealth | core/middleware.py:35-66 | the email-check exemptions are the JWT exemptions minus '/api/health/': every email-exempt path is JWT-exempt and the health path is only JWT-exempt |
| Gating.EmailGate | core/middleware.py:60-74 | on a non-exempt path, exactly an authenticated user with an unverified email is answered 403; unauthenticated and verified users pass |
| Gating.EmailGateAsWritten | core/middleware.py:69-70 | as written, exactly the authenticated requests on non-exempt paths raise, and every other request passes |
| Gating.EmailAttributeWitness | core/middleware.py:69-74 | a verified user on a non-exempt path passes the intended check and raises as written |
| Gating.LevelFor | core/middleware.py:26-29 | the log level is error exactly when the status is 400 or more |
| Gating.RequestLogging | core/middleware.py:14-30 | the response is returned unchanged; one line is logged exactly when a start time was recorded, with the status, the error level exactly for status 400 or more, and the authenticated user's name or "anonymous" |
| Gating.LogLevelMatchesSecurityLog | core/middleware.py:26-29 | given a non-empty client address and an agent, a response is logged at error level exactly when the audit middleware (audit/middleware.py:23) records a security event for it |
| Gating.AccountsJwt | accounts/middleware.py:11-31 | without a Bearer header the handler gets the unchanged request; a token naming a known user binds that user and calls the handler; an unknown user or an undecodable token gets 401 'Invalid token' without calling the handler; a payload without `user_id` raises KeyError |
| Gating.AccountsJwtAsWritten | accounts/middleware.py:16-29 | an undecodable token raises UnboundLocalError; in every other case it agrees with the corrected middleware |
| Gating.UnboundUserWitness | accounts/middleware.py:16-29 | the header "Bearer garbage" raises as written and is answered 401 as intended |
| Gating.RequireUserType | accounts/decorators.py:6-24 | unauthenticated requests get 401 whatever is allowed; authenticated users of another type get 403; the view runs, on the unchanged request, exactly for an authenticated user of an allowed type |
| Gating.RequireUserTypeMatchesRole | accounts/decorators.py:10-22 | the decorator with one role's code admits exactly the users that role's permission class (accounts/permissions.py:3-17) grants |
| Gating.RequireObjectOwnership | accounts/decorators.py:26-45 | an object without a `user` gets 403 even for staff; otherwise the view runs exactly when the requester owns the object or is staff, and 403 'Permission denied' is the answer when not |
| Gating.RequireObjectOwnershipAsWritten | accounts/decorators.py:30 | as written every call raises AttributeError before any check |
| Gating.OwnershipLookupWitness | accounts/decorators.py:29-43 | an owner who is let through by the intended check while the code as written raises |
| Gating.Role.Code | accounts/permissions.py:3-17 | each role permission class compares against one of the user types EMPLOYER, PROVIDER, BROKER, ADMIN |
| Gating.RoleOf | accounts/permissions.py:3-17 | a user type names a role exactly when it is one of the four codes, and then that role's code is the type |
| Gating.RoleRoundTrip | accounts/permissions.py:3-17 | each role's code reads back as that role |
| Gating.HasPermission | accounts/permissions.py:3-17 | IsEmployer, IsProvider, IsBroker and IsAdmin each grant exactly an authenticated user whose stored type names the class's role |
| Gating.AtMostOneRole | accounts/permissions.py:3-17 | no user is granted by two different role classes, and an unauthenticated request is granted by none |
| Gating.IsOwnerOrAdmin | accounts/permissions.py:19-24 | an ADMIN-type user is always granted; anyone else exactly for an object whose `user` is the requester; AnonymousUser, which has no user type, raises |
| Gating.StaffIsNotAdmin | accounts/permissions.py:19-24 | a staff user who is neither ADMIN-type nor the owner is refused by IsOwnerOrAdmin, although `require_object_ownership` would let them through |

## Left out

- The Provider, Employee, Dependent, Broker and User tables are outside the model. Rows of the ledger hold their keys as plain numbers, so their foreign keys are not checked, and their own CASCADE and PROTECT rules are not modelled. This includes a provider's CASCADE to its plans.
- Ledger.CreatePlan: does not check that the provider exists, because the Provider table is not modelled.
- Ledger.CreateEnrollment: does not check that the employee and broker exist, for the same reason.
- Ledger.CreateDependentEnrollment: does not check that the dependent exists, for the same reason.
- Ledger.CreateTransaction: does not check that the provider and broker exist, for the same reason.
- `created_at`/`updated_at` timestamps and `max_length` limits on text columns are not modelled. Audit timestamps are a `now` parameter.
- Serializer validation is reduced to whether the payload is valid (`None` for invalid data). Field-level errors and nested read-only representations are not modelled.
- EnrollmentViews.RemoveDependent: a `dependent_id` that is not an integer raises in the lookup; the model takes it as a number or absent.
- The `permission_classes` of the viewsets are framework wiring and are not modelled. The `employee` query parameter is modelled for `add_dependent` and `remove_dependent`, whose `get_object()` it narrows; the other viewsets' list filters are not.
- EnrollmentViews.AddDependent (and RemoveDependent): an `employee` parameter that is not an integer raises in the lookup; the model takes it as a number or absent (an empty parameter counts as absent).
- Table.NextId: the key handed out is one above the largest current key, so after the highest row is deleted its key can be reissued; a database auto-increment column never reissues a key.
- Token signature checking, expiry and decoding are foreign calls. They appear as the parameters `accepts` and `decode`.
- The user lookup of the accounts middleware is a map from id to user.
- The `get_object` of a view appears as the `TargetLookup` and `OwnedObject` parameters.
- `ContentType.get_for_model` is reduced to the target's model name.
- Request duration, the logged method, path and IP, and the logger itself are not modelled; request logging returns the line it would write.
- Concurrency, transactions and database isolation are not modelled; each operation is one atomic step.
- AuditWrappers.AuditAction: models the decorator on a view method called as `(self, request, ...)`. On a function view, or through `method_decorator`, `args` is empty, so `args[0]` raises IndexError before the `try` and nothing is logged; that calling convention is not modelled.
- AuditWrappers.AuditSecurity: the same calling convention is assumed, for the same reason.
- Audit.StoredAddress: only the empty address is normalised (to NULL); the IPv6 normalisation a GenericIPAddressField applies when saving, and the error it raises for a malformed IPv6 string, are not modelled, so such an address is stored as given.
- Gating.RequireUserType: `user` is `request.user` as the authentication middleware set it; a request without a `user` attribute, which raises AttributeError, is not modelled.
- Gating.RequireObjectOwnership: the same assumption about `user` holds.
- The health view, the auth views and the messaging app are outside the modelled core.

## Findings

| source | as written | input that shows it | evidently intended | confidence | as-written member | corrected member |
|---|---|---|---|---|---|---|
| enrollment/views.py:118 | the aggregate uses `models.Sum`, but the file never imports `models` | any `provider_revenue` request with two valid dates | the sum of the completed provider payments in the range | high; not executed | EnrollmentViews.ProviderRevenueAsWritten, EnrollmentViews.RevenueNameErrorWitness | EnrollmentViews.ProviderRevenue |
| enrollment/views.py:55-58 | `dependent` is a read-only serializer field, so `save()` creates a row without the NOT NULL `dependent_id` | a valid payload for an existing enrollment with no dependents | store the dependent enrollment and answer 201 | medium; not executed | EnrollmentViews.AddDependentAsWritten, EnrollmentViews.AddDependentWitness | EnrollmentViews.AddDependent |
| audit/middleware.py:27 | `request.user` is passed even when it is AnonymousUser, and assigning it to a User foreign key raises ValueError | a request that is still unauthenticated after the view, answered with 401 | record the event with no user and return the response | high; not executed | AuditWrappers.AuditMiddlewareAsWritten, AuditWrappers.AnonymousErrorWitness | AuditWrappers.AuditMiddleware |
| accounts/middleware.py:25 | the `except` tuple names the local `User`, which is assigned only after `jwt.decode` succeeds | the header "Bearer garbage" | answer 401 'Invalid token' | high; not executed | Gating.AccountsJwtAsWritten, Gating.UnboundUserWitness | Gating.AccountsJwt |
| core/middleware.py:70 | reads `email_verified`, a field the user model in accounts/models.py does not declare | a verified, authenticated user requesting /api/enrollments/ | 403 only for users whose email is unverified | medium; not executed | Gating.EmailGateAsWritten, Gating.EmailAttributeWitness | Gating.EmailGate |
| accounts/decorators.py:30 | calls `get_object()` on the decorated function, which has no such attribute | the owner of an object requesting it | look the object up through the view and compare its owner | high; not executed | Gating.RequireObjectOwnershipAsWritten, Gating.OwnershipLookupWitness | Gating.RequireObjectOwnership |

=== FILE: audit.dfy ===
/** The audit trail (audit/models.py and audit/services.py): two
    append-only logs, one of business actions and one of security events,
    and the two service calls that build a record from optional inputs and
    append it. */
module Audit {

  import opened Http

  /** `auto_now_add` timestamps come from a clock outside the model. */
  type Time = int

  const AuditActionCodes: set<string> :=
    {"CREATE", "UPDATE", "DELETE", "LOGIN", "LOGOUT", "ACCESS", "PERMISSION_CHANGE", "ROLE_CHANGE", "VIEW", "EXPORT"}

  const SecurityActionCodes: set<string> :=
    {"PERMISSION_DENIED", "INVALID_TOKEN", "SUSPICIOUS_ACCESS", "RATE_LIMIT_EXCEEDED", "PASSWORD_CHANGE", "FAILED_LOGIN"}

  const DefaultStatus: string := "SUCCESS"
  const ErrorStatus: string := "ERROR"
  const DefaultSeverity: string := "INFO"
  const AnonymousUserType: string := "ANONYMOUS"

  /** A value inside a record's JSON `details`. */
  datatype Value = Text(text: string) | Number(n: int)

  type Details = map<string, Value>

  /** A model instance passed as `target_object`: its model (what
      `ContentType.get_for_model` resolves) and its primary key. */
  datatype TargetObject = TargetObject(model: string, id: nat)

  /** The generic foreign key of an AuditLog. */
  datatype ObjectRef = ObjectRef(contentType: string, objectId: nat)

  datatype AuditLog = AuditLog(
    user: Option<nat>,
    action: string,
    userType: string,
    timestamp: Time,
    ipAddress: Option<string>,
    userAgent: Option<string>,
    target: Option<ObjectRef>,
    details: Details,
    status: string,
    errorMessage: Option<string>)

  datatype SecurityAuditLog = SecurityAuditLog(
    timestamp: Time,
    action: string,
    user: Option<nat>,
    ipAddress: string,
    userAgent: string,
    details: Details,
    severity: string)

  /** Both tables, in write order. */
  datatype Trail = Trail(actions: seq<AuditLog>, security: seq<SecurityAuditLog>)

  /** What a caller passes as `user`: nothing, Django's AnonymousUser, or a
      row of the user table. */
  datatype LogUser = NoUser | AnonymousUser | RealUser(u: User)

  function ActorAsLogUser(a: Actor): LogUser {
    match a
    case Anonymous => AnonymousUser
    case Authenticated(u) => RealUser(u)
  }

  /** Assigning anything but a user row (or None) to the `user` foreign key
      raises ValueError when the record is constructed. */
  function RejectsUser(u: LogUser): bool { u.AnonymousUser? }

  function UserKey(u: LogUser): Option<nat> {
    if u.RealUser? then Some(u.u.id) else None
  }

  /** The trail only grows: each table of `t` is a prefix of the same table
      of `t'`. */
  predicate Extends(t: Trail, t': Trail) {
    && |t.actions| <= |t'.actions| && t'.actions[..|t.actions|] == t.actions
    && |t.security| <= |t'.security| && t'.security[..|t.security|] == t.security
  }

  lemma {:induction false} ExtendsTransitive(t1: Trail, t2: Trail, t3: Trail)
    requires Extends(t1, t2) && Extends(t2, t3)
    ensures Extends(t1, t3)
  {
    assert t3.actions[..|t1.actions|] == t3.actions[..|t2.actions|][..|t1.actions|];
    assert t3.security[..|t1.security|] == t3.security[..|t2.security|][..|t1.security|];
  }

  /** What a `GenericIPAddressField` saves from `REMOTE_ADDR`: the database
      adapter writes an empty address as NULL. */
  function StoredAddress(a: Option<string>): (r: Option<string>)
    ensures r.None? <==> a.None? || a == Some("")
    ensures r.Some? ==> r == a
  {
    if a == Some("") then None else a
  }

  /** The request supplies both NOT NULL client columns of a security
      event: an address that is not saved as NULL, and an agent. */
  predicate ClientKnown(request: Request) {
    StoredAddress(request.remoteAddr).Some? && request.userAgent.Some?
  }

  function BadUserAssignment(): Exc { Exc(ValueError, "Cannot assign AnonymousUser: the user field must be a User instance") }

  /** `AuditService.log_action`: builds one AuditLog and appends it. The
      user type is the user's own, or ANONYMOUS when no user is passed;
      missing details become an empty map; client address and agent are
      recorded only when a request is given, the target only when a target
      is given; the status is SUCCESS unless one is passed. Passing
      AnonymousUser raises before anything is written. */
  function LogAction(trail: Trail, user: LogUser, action: string, details: Option<Details>,
                     request: Option<Request>, target: Option<TargetObject>,
                     status: Option<string>, errorMessage: Option<string>, now: Time)
    : (res: (Trail, Outcome<AuditLog>))
    ensures res.1.Raised? <==> RejectsUser(user)
    ensures res.1.Raised? ==> res.0 == trail && res.1.exc.kind == ValueError
    ensures res.1.Returned? ==> var a := res.1.value;
      && res.0 == trail.(actions := trail.actions + [a])
      && a.action == action && a.errorMessage == errorMessage && a.timestamp == now
      && a.status == (if status.Some? then status.value else DefaultStatus)
      && a.userType == (if user.RealUser? then user.u.userType else AnonymousUserType)
      && a.user == UserKey(user)
      && a.details == (if details.Some? then details.value else map[])
      && (a.ipAddress.Some? || a.userAgent.Some? ==> request.Some?)
      && (request.Some? ==> a.ipAddress == StoredAddress(request.value.remoteAddr) && a.userAgent == request.value.userAgent)
      && (a.target.Some? <==> target.Some?)
      && (target.Some? ==> a.target.value.objectId == target.value.id && a.target.value.contentType == target.value.model)
    ensures Extends(trail, res.0) && |res.0.actions| <= |trail.actions| + 1 && res.0.security == trail.security
  {
    if RejectsUser(user) then (trail, Raised(BadUserAssignment()))
    else
      var rec := AuditLog(
        UserKey(user), action,
        match user case RealUser(u) => u.userType case _ => AnonymousUserType,
        now,
        match request case Some(r) => StoredAddress(r.remoteAddr) case None => None,
        match request case Some(r) => r.userAgent case None => None,
        match target case Some(o) => Some(ObjectRef(o.model, o.id)) case None => None,
        match details case Some(d) => d case None => map[],
        match status case Some(st) => st case None => DefaultStatus,
        errorMessage);
      assert (trail.actions + [rec])[..|trail.actions|] == trail.actions;
      (trail.(actions := trail.actions + [rec]), Returned(rec))
  }

  /** `AuditService.log_security_event`: builds one SecurityAuditLog with
      the given action and severity (INFO unless one is passed) and appends
      it. Client address and agent are NOT NULL columns, so a request
      lacking either is refused by the database, and so is an empty
      address, which is saved as NULL; AnonymousUser as `user` raises as in
      `LogAction`. */
  function LogSecurityEvent(trail: Trail, action: string, request: Request, user: LogUser,
                            details: Option<Details>, severity: Option<string>, now: Time)
    : (res: (Trail, Outcome<SecurityAuditLog>))
    ensures res.1.Raised? <==> RejectsUser(user) || request.remoteAddr.None? || request.remoteAddr == Some("") ||
                               request.userAgent.None?
    ensures res.1.Raised? ==> res.0 == trail
    ensures res.1.Raised? ==> res.1.exc.kind == (if RejectsUser(user) then ValueError else IntegrityError)
    ensures res.1.Returned? ==> var e := res.1.value;
      && res.0 == trail.(security := trail.security + [e])
      && e.action == action && e.timestamp == now
      && e.severity == (if severity.Some? then severity.value else DefaultSeverity)
      && e.user == UserKey(user)
      && Some(e.ipAddress) == request.remoteAddr && e.ipAddress != "" && Some(e.userAgent) == request.userAgent
      && e.details == (if details.Some? then details.value else map[])
    ensures Extends(trail, res.0) && |res.0.security| <= |trail.security| + 1 && res.0.actions == trail.actions
  {
    if RejectsUser(user) then (trail, Raised(BadUserAssignment()))
    else if !ClientKnown(request) then
      (trail, Raised(Exc(IntegrityError, "NOT NULL constraint failed")))
    else
      var ev := SecurityAuditLog(now, action, UserKey(user), request.remoteAddr.value, request.userAgent.value,
                                 match details case Some(d) => d case None => map[],
                                 match severity case Some(sv) => sv case None => DefaultSeverity);
      assert (trail.security + [ev])[..|trail.security|] == trail.security;
      (trail.(security := trail.security + [ev]), Returned(ev))
  }

  /** An empty client address is the same as none to both services: the
      action log records no address, and the security log, whose address
      column is NOT NULL, refuses the event. */
  lemma EmptyAddressNotStored(trail: Trail, user: LogUser, action: string, request: Request, now: Time)
    requires !RejectsUser(user) && request.remoteAddr == Some("")
    ensures var logged := LogAction(trail, user, action, None, Some(request), None, None, None, now).1;
      logged.Returned? && logged.value.ipAddress.None?
    ensures var refused := LogSecurityEvent(trail, action, request, user, None, None, now);
      refused.0 == trail && refused.1.Raised? && refused.1.exc.kind == IntegrityError
  {
  }

  /** Deleting a user (`on_delete=SET_NULL` on both tables) clears the
      user of that user's records; no record is removed or otherwise
      changed. */
  function ForgetUser(trail: Trail, uid: nat): (t': Trail)
    ensures |t'.actions| == |trail.actions| && |t'.security| == |trail.security|
    ensures forall i :: 0 <= i < |t'.actions| ==>
      t'.actions[i] == trail.actions[i].(user := if trail.actions[i].user == Some(uid) then None else trail.actions[i].user)
    ensures forall i :: 0 <= i < |t'.security| ==>
      t'.security[i] == trail.security[i].(user := if trail.security[i].user == Some(uid) then None else trail.security[i].user)
    ensures forall i :: 0 <= i < |t'.actions| ==> t'.actions[i].user != Some(uid)
    ensures forall i :: 0 <= i < |t'.security| ==> t'.security[i].user != Some(uid)
  {
    Trail(
      seq(|trail.actions|, i requires 0 <= i < |trail.actions| =>
        trail.actions[i].(user := if trail.actions[i].user == Some(uid) then None else trail.actions[i].user)),
      seq(|trail.security|, i requires 0 <= i < |trail.security| =>
        trail.security[i].(user := if trail.security[i].user == Some(uid) then None else trail.security[i].user)))
  }

  // ---------------------------------------------------------------------
  // Listing order: `ordering = ['-timestamp']`
  // ---------------------------------------------------------------------

  predicate NewestFirstOrder(logs: seq<AuditLog>) {
    forall i, j :: 0 <= i < j < |logs| ==> logs[i].timestamp >= logs[j].timestamp
  }

  /** Places one record into a listing that is already newest first. */
  function InsertByTime(a: AuditLog, sorted: seq<AuditLog>): (r: seq<AuditLog>)
    requires NewestFirstOrder(sorted)
    ensures NewestFirstOrder(r)
    ensures multiset(r) == multiset(sorted) + multiset{a}
    ensures forall x :: x in r ==> x == a || x in sorted
  {
    if |sorted| == 0 then [a]
    else if a.timestamp >= sorted[0].timestamp then
      assert multiset([a] + sorted) == multiset{a} + multiset(sorted);
      [a] + sorted
    else
      var rest := InsertByTime(a, sorted[1..]);
      InsertBehindHead(a, sorted, rest);
      [sorted[0]] + rest
  }

  /** The recursive step of `InsertByTime`: the head stays in front. */
  lemma InsertBehindHead(a: AuditLog, sorted: seq<AuditLog>, rest: seq<AuditLog>)
    requires |sorted| > 0 && NewestFirstOrder(sorted) && a.timestamp < sorted[0].timestamp
    requires NewestFirstOrder(rest)
    requires multiset(rest) == multiset(sorted[1..]) + multiset{a}
    requires forall x :: x in rest ==> x == a || x in sorted[1..]
    ensures NewestFirstOrder([sorted[0]] + rest)
    ensures multiset([sorted[0]] + rest) == multiset(sorted) + multiset{a}
    ensures forall x :: x in [sorted[0]] + rest ==> x == a || x in sorted
  {
    var r := [sorted[0]] + rest;
    forall j | 0 <= j < |rest| ensures rest[j].timestamp <= sorted[0].timestamp {
      assert rest[j] in rest;
      if rest[j] != a {
        var k :| 0 <= k < |sorted[1..]| && sorted[1..][k] == rest[j];
        assert sorted[k + 1] == rest[j];
      }
    }
    forall i, j | 0 <= i < j < |r| ensures r[i].timestamp >= r[j].timestamp {
      assert r[j] == rest[j - 1];
      if i > 0 { assert r[i] == rest[i - 1]; }
    }
    assert sorted == [sorted[0]] + sorted[1..];
    assert multiset(sorted) == multiset{sorted[0]} + multiset(sorted[1..]);
    forall x | x in r ensures x == a || x in sorted {
      if x != sorted[0] {
        assert x in rest;
      }
    }
  }

  /** The AuditLog listing: every record, newest timestamp first (records
      with equal timestamps may come in either order). */
  function NewestFirst(logs: seq<AuditLog>): (r: seq<AuditLog>)
    ensures NewestFirstOrder(r)
    ensures multiset(r) == multiset(logs)
  {
    if |logs| == 0 then []
    else
      assert logs == [logs[0]] + logs[1..];
      InsertByTime(logs[0], NewestFirst(logs[1..]))
  }
}

=== FILE: audit_wrappers.dfy ===
/** The places that write the audit trail: the `audit_action` and
    `audit_security` view decorators (audit/decorators.py) and the
    `AuditMiddleware` (audit/middleware.py). The wrapped view or handler is
    not modelled; its outcome is a parameter. */
module AuditWrappers {

  import opened Http
  import opened Audit

  /** `{'method': request.method, 'path': request.path}`. */
  function RequestDetails(req: Request): Details {
    map["method" := Text(req.verb), "path" := Text(req.path)]
  }

  function NoUserAttribute(): Exc { Exc(AttributeError, "'WSGIRequest' object has no attribute 'user'") }

  /** Reading `request.user` where no middleware has set it raises. */
  function RequestUser(req: Request): (r: Outcome<LogUser>)
    ensures r.Raised? <==> req.user.None?
    ensures r.Raised? ==> r.exc.kind == AttributeError
    ensures r.Returned? ==> r.value == ActorAsLogUser(req.user.value)
  {
    match req.user
    case None => Raised(NoUserAttribute())
    case Some(a) => Returned(ActorAsLogUser(a))
  }

  // ---------------------------------------------------------------------
  // audit_action(action_type)
  // ---------------------------------------------------------------------

  /** What `getattr(view_func, 'get_object', lambda: None)()` does: there is
      no such method, it returns an object (or None), or it raises. */
  datatype TargetLookup = NoGetObject | GetObjectReturns(obj: Option<TargetObject>) | GetObjectRaises(exc: Exc)

  /** The `except` branch: one ERROR record without a target, carrying
      `str(e)`, then `raise`. The result is the trail and the exception that
      escapes: `e` itself, or, if writing the record fails, that failure. */
  function AuditFailure(trail: Trail, actionType: string, req: Request, e: Exc, now: Time): (res: (Trail, Exc))
    ensures Extends(trail, res.0) && res.0.security == trail.security
    ensures req.user.Some? && req.user.value.Authenticated? ==>
      && res.1 == e
      && |res.0.actions| == |trail.actions| + 1
      && var a := res.0.actions[|trail.actions|];
        a.status == ErrorStatus && a.errorMessage == Some(Str(e)) && a.target.None? &&
        a.action == actionType && a.details == RequestDetails(req) && a.user == Some(req.user.value.user.id)
    ensures !(req.user.Some? && req.user.value.Authenticated?) ==>
      res.0 == trail && res.1.kind == (if req.user.None? then AttributeError else ValueError)
  {
    match RequestUser(req)
    case Raised(e2) => (trail, e2)
    case Returned(u) =>
      var (t', rec) := LogAction(trail, u, actionType, Some(RequestDetails(req)), Some(req), None,
                                 Some(ErrorStatus), Some(Str(e)), now);
      match rec
      case Raised(e3) => (trail, e3)
      case Returned(_) => (t', e)
  }

  /** The success record of `audit_action`, written inside the `try`:
      arguments are evaluated left to right, so `request.user` is read
      before `get_object` is called. */
  function AuditSuccess(trail: Trail, actionType: string, req: Request, lookup: TargetLookup, now: Time)
    : (res: (Trail, Outcome<AuditLog>))
    ensures res.1.Raised? ==> res.0 == trail
    ensures res.1.Returned? ==> res.0 == trail.(actions := trail.actions + [res.1.value])
  {
    match RequestUser(req)
    case Raised(e) => (trail, Raised(e))
    case Returned(u) =>
      match lookup
      case GetObjectRaises(e) => (trail, Raised(e))
      case NoGetObject =>
        LogAction(trail, u, actionType, Some(RequestDetails(req)), Some(req), None, None, None, now)
      case GetObjectReturns(obj) =>
        LogAction(trail, u, actionType, Some(RequestDetails(req)), Some(req), obj, None, None, now)
  }

  /** `audit_action(action_type)` around a view whose own outcome is `call`.
      `req.user` is the request's user as the view left it: the wrapper
      reads it only after the view has run.
      When the view returns and the success record is written, the result
      is passed through unchanged after exactly one SUCCESS record carrying
      the view's target. When the view raises, exactly one ERROR record
      without a target is written and the same exception is re-raised.
      Because the success record is written inside the `try`, a failure
      while writing it (or while looking up the target) lands in the same
      `except` branch: the view's result is lost and an ERROR record is
      written for the logging failure. */
  function AuditAction<R>(trail: Trail, actionType: string, req: Request, call: Outcome<R>,
                          lookup: TargetLookup, now: Time)
    : (res: (Trail, Outcome<R>))
    ensures Extends(trail, res.0) && res.0.security == trail.security
    ensures |res.0.actions| <= |trail.actions| + 1
    ensures req.user.Some? && req.user.value.Authenticated? ==>
      |res.0.actions| == |trail.actions| + 1 &&
      var a := res.0.actions[|trail.actions|];
      && a.action == actionType && a.details == RequestDetails(req)
      && a.user == Some(req.user.value.user.id)
      && (call.Returned? && !lookup.GetObjectRaises? ==>
            && res.1 == call && a.status == DefaultStatus && a.errorMessage.None?
            && a.target.Some? == (lookup.GetObjectReturns? && lookup.obj.Some?)
            && (a.target.Some? ==> a.target.value.objectId == lookup.obj.value.id))
      && (call.Raised? ==> res.1 == call && a.status == ErrorStatus && a.errorMessage == Some(Str(call.exc)) && a.target.None?)
      && (call.Returned? && lookup.GetObjectRaises? ==>
            res.1 == Raised(lookup.exc) && a.status == ErrorStatus && a.errorMessage == Some(Str(lookup.exc)) &&
            a.target.None?)
    ensures !(req.user.Some? && req.user.value.Authenticated?) ==> res.0 == trail && res.1.Raised?
  {
    match call
    case Raised(e) =>
      var (t', escaped) := AuditFailure(trail, actionType, req, e, now);
      (t', Raised(escaped))
    case Returned(v) =>
      match AuditSuccess(trail, actionType, req, lookup, now)
      case (t', Returned(_)) => (t', Returned(v))
      case (_, Raised(e2)) =>
        var (t', escaped) := AuditFailure(trail, actionType, req, e2, now);
        (t', Raised(escaped))
  }

  // ---------------------------------------------------------------------
  // audit_security(severity='INFO')
  // ---------------------------------------------------------------------

  /** `audit_security(severity)` around a view whose own outcome is `call`
      (`severity` None stands for the decorator's default, INFO):
      nothing is written when the view returns, and its result passes
      through. When it raises, one PERMISSION_DENIED security event with the
      configured severity and `{'error': str(e)}` is written and the same
      exception is re-raised, provided the event can be stored; when it
      cannot (AnonymousUser, or a missing or empty client address or a missing agent), nothing
      is written and the storage error escapes instead. `req.user` is the
      request's user as the view left it, the only time it is read. */
  function AuditSecurity<R>(trail: Trail, severity: Option<string>, req: Request, call: Outcome<R>, now: Time)
    : (res: (Trail, Outcome<R>))
    ensures call.Returned? ==> res == (trail, call)
    ensures Extends(trail, res.0) && res.0.actions == trail.actions
    ensures |res.0.security| <= |trail.security| + 1
    ensures call.Raised? ==> res.1.Raised?
    ensures call.Raised? && |res.0.security| == |trail.security| + 1 ==>
      && res.1 == call
      && var e := res.0.security[|trail.security|];
        e.action == "PERMISSION_DENIED" && e.action in SecurityActionCodes &&
        e.severity == (if severity.Some? then severity.value else DefaultSeverity) &&
        e.details == map["error" := Text(Str(call.exc))] &&
        e.user == (if req.user.Some? && req.user.value.Authenticated? then Some(req.user.value.user.id) else None)
    ensures call.Raised? && !(req.user.Some? && req.user.value.Anonymous?) && ClientKnown(req) ==>
      |res.0.security| == |trail.security| + 1
    ensures call.Raised? && (req.user == Some(Anonymous) || !ClientKnown(req)) ==>
      && res.0 == trail
      && res.1.Raised?
      && res.1.exc.kind == (if req.user == Some(Anonymous) then ValueError else IntegrityError)
  {
    match call
    case Returned(_) => (trail, call)
    case Raised(e) =>
      var user := if req.user.Some? then ActorAsLogUser(req.user.value) else NoUser;
      var (t', ev) := LogSecurityEvent(trail, "PERMISSION_DENIED", req, user,
                                       Some(map["error" := Text(Str(e))]), severity, now);
      match ev
      case Raised(e2) => (trail, Raised(e2))
      case Returned(_) => (t', Raised(e))
  }

  // ---------------------------------------------------------------------
  // AuditMiddleware
  // ---------------------------------------------------------------------

  /** The security action recorded for an error response. "ERROR" is not
      one of SecurityAuditLog's declared choices; choices are not enforced
      on save, so it is stored as is. */
  function SecurityActionFor(status: int): (a: string)
    ensures a == "PERMISSION_DENIED" <==> status == 403
    ensures a == "ERROR" <==> status != 403
    ensures a in SecurityActionCodes <==> status == 403
  {
    if status == 403 then "PERMISSION_DENIED" else "ERROR"
  }

  /** HIGH for 401 and 403, MEDIUM for every other error status. */
  function SeverityFor(status: int): (s: string)
    ensures s == "HIGH" <==> status == 401 || status == 403
    ensures s == "MEDIUM" <==> status != 401 && status != 403
  {
    if status in [401, 403] then "HIGH" else "MEDIUM"
  }

  /** The action and the severity classify an error status consistently:
      a refusal is always HIGH, HIGH errors are exactly the 401s, and a
      MEDIUM event is always a generic error. */
  lemma ClassificationAgrees(status: int)
    ensures SecurityActionFor(status) == "PERMISSION_DENIED" ==> SeverityFor(status) == "HIGH"
    ensures SeverityFor(status) == "HIGH" && SecurityActionFor(status) == "ERROR" <==> status == 401
    ensures SeverityFor(status) == "MEDIUM" ==> SecurityActionFor(status) == "ERROR"
  {
  }

  /** `{'status_code': ..., 'method': ..., 'path': ...}`. */
  function ErrorDetails(req: Request, status: int): Details {
    map["status_code" := Number(status), "method" := Text(req.verb), "path" := Text(req.path)]
  }

  /** Pre-processing: an authenticated request writes one ACCESS record;
      any other request writes nothing. */
  function AccessRecord(trail: Trail, req: Request, now: Time): (t': Trail)
    ensures t'.security == trail.security
    ensures req.user.Some? && req.user.value.Authenticated? ==>
      && |t'.actions| == |trail.actions| + 1 && t'.actions[..|trail.actions|] == trail.actions
      && t'.actions[|trail.actions|].action == "ACCESS" && t'.actions[|trail.actions|].action in AuditActionCodes
      && t'.actions[|trail.actions|].status == DefaultStatus
      && t'.actions[|trail.actions|].details == RequestDetails(req)
    ensures !(req.user.Some? && req.user.value.Authenticated?) ==> t' == trail
  {
    if req.user.Some? && req.user.value.Authenticated? then
      LogAction(trail, RealUser(req.user.value.user), "ACCESS", Some(RequestDetails(req)), Some(req), None,
                None, None, now).0
    else trail
  }

  /** The `user` the post-processing passes, as written, given `request.user`
      as the view left it: that value whenever the attribute exists,
      AnonymousUser included. */
  function SecurityUserAsWritten(user: Option<Actor>): (u: LogUser)
    ensures u.AnonymousUser? <==> user == Some(Anonymous)
    ensures u.NoUser? <==> user.None?
    ensures u.RealUser? ==> user == Some(Authenticated(u.u))
  {
    if user.Some? then ActorAsLogUser(user.value) else NoUser
  }

  /** The `user` the post-processing evidently means: the authenticated
      user, or None. */
  function SecurityUser(user: Option<Actor>): (u: LogUser)
    ensures !RejectsUser(u)
    ensures u.RealUser? <==> user.Some? && user.value.Authenticated?
    ensures u.RealUser? ==> user == Some(Authenticated(u.u))
  {
    if user.Some? && user.value.Authenticated? then RealUser(user.value.user) else NoUser
  }

  /** The middleware, given the `user` its post-processing passes to the
      security log. `handler` is what the next layer does with the request;
      if it raises, the exception passes through untouched. */
  function AuditMiddlewareWith(trail: Trail, req: Request, handler: Outcome<Response>, now: Time, user: LogUser)
    : (res: (Trail, Outcome<Response>))
    ensures Extends(trail, res.0)
    ensures res.0.actions == AccessRecord(trail, req, now).actions
    ensures handler.Raised? || handler.value.status < 400 ==> res.1 == handler && res.0.security == trail.security
    ensures handler.Returned? && handler.value.status >= 400 ==>
      if RejectsUser(user) || !ClientKnown(req) then
        res.1.Raised? && res.0.security == trail.security
      else
        && res.1 == handler
        && |res.0.security| == |trail.security| + 1
        && res.0.security[|trail.security|].action == SecurityActionFor(handler.value.status)
        && res.0.security[|trail.security|].severity == SeverityFor(handler.value.status)
        && res.0.security[|trail.security|].details == ErrorDetails(req, handler.value.status)
        && res.0.security[|trail.security|].user == UserKey(user)
  {
    var t1 := AccessRecord(trail, req, now);
    assert Extends(trail, t1) by {
      assert trail.actions[..|trail.actions|] == trail.actions;
      assert trail.security[..|trail.security|] == trail.security;
    }
    match handler
    case Raised(_) => (t1, handler)
    case Returned(resp) =>
      if resp.status >= 400 then
        var (t2, ev) := LogSecurityEvent(t1, SecurityActionFor(resp.status), req, user,
                                         Some(ErrorDetails(req, resp.status)), Some(SeverityFor(resp.status)), now);
        ExtendsTransitive(trail, t1, t2);
        match ev
        case Raised(e) => (t1, Raised(e))
        case Returned(_) => (t2, handler)
      else (t1, handler)
  }

  /** `AuditMiddleware.__call__` as written. `request.user` is read twice:
      `req.user` before the handler runs (for the ACCESS record) and `after`
      once it has returned (for the security event). The two differ when
      the view authenticates the request itself, as a REST framework view
      does. It agrees with the corrected middleware except on an error
      response whose request is unauthenticated after the view, where it
      raises ValueError, loses the response and stores no event; only the
      ACCESS record of a request authenticated before the view remains. */
  function AuditMiddlewareAsWritten(trail: Trail, req: Request, handler: Outcome<Response>, after: Option<Actor>,
                                    now: Time)
    : (res: (Trail, Outcome<Response>))
    ensures var anonymousError := after == Some(Anonymous) && handler.Returned? && handler.value.status >= 400;
      && (anonymousError ==> res.1.Raised? && res.1.exc.kind == ValueError && res.0 == AccessRecord(trail, req, now))
      && (anonymousError && !(req.user.Some? && req.user.value.Authenticated?) ==> res.0 == trail)
      && (!anonymousError ==> res == AuditMiddleware(trail, req, handler, after, now))
  {
    AuditMiddlewareWith(trail, req, handler, now, SecurityUserAsWritten(after))
  }

  /** `AuditMiddleware.__call__` with the anonymous user recorded as None.
      Exactly one ACCESS record for an authenticated request, none
      otherwise; no security event for a status below 400; exactly one for
      a status of 400 or more (given a non-empty client address and an agent the
      table requires), PERMISSION_DENIED only for 403, severity HIGH only
      for 401 and 403, recorded under the user `after` names (the request's
      user once the handler has returned) when that user is authenticated;
      the handler's response is returned unchanged. */
  function AuditMiddleware(trail: Trail, req: Request, handler: Outcome<Response>, after: Option<Actor>, now: Time)
    : (res: (Trail, Outcome<Response>))
    ensures Extends(trail, res.0)
    ensures |res.0.actions| == |trail.actions| + (if req.user.Some? && req.user.value.Authenticated? then 1 else 0)
    ensures req.user.Some? && req.user.value.Authenticated? ==> res.0.actions[|trail.actions|].action == "ACCESS"
    ensures handler.Raised? ==> res.1 == handler && res.0.security == trail.security
    ensures handler.Returned? && handler.value.status < 400 ==> res.1 == handler && res.0.security == trail.security
    ensures handler.Returned? && handler.value.status >= 400 && ClientKnown(req) ==>
      && res.1 == handler
      && |res.0.security| == |trail.security| + 1
      && var e := res.0.security[|trail.security|];
        && (e.action == "PERMISSION_DENIED" <==> handler.value.status == 403)
        && (e.severity == "HIGH" <==> handler.value.status in {401, 403})
        && e.details == ErrorDetails(req, handler.value.status)
        && e.user == (if after.Some? && after.value.Authenticated? then Some(after.value.user.id) else None)
  {
    AuditMiddlewareWith(trail, req, handler, now, SecurityUser(after))
  }

  /** The discrepancy: an unauthenticated request answered with 401 makes
      the middleware as written hand AnonymousUser to the security log,
      which raises ValueError; the response is lost and no event is stored.
      The corrected middleware stores one HIGH event and returns the 401. */
  lemma AnonymousErrorWitness()
    ensures var req := Request("GET", "/api/enrollments/", None, Some(Anonymous), Some("10.0.0.1"), Some("curl"));
      var handler := Returned(Response(401, "Authentication credentials were not provided."));
      var after := Some(Anonymous);
      && AuditMiddlewareAsWritten(Trail([], []), req, handler, after, 0).1.Raised?
      && AuditMiddlewareAsWritten(Trail([], []), req, handler, after, 0).1.exc.kind == ValueError
      && AuditMiddlewareAsWritten(Trail([], []), req, handler, after, 0).0 == Trail([], [])
      && AuditMiddleware(Trail([], []), req, handler, after, 0).1 == handler
      && |AuditMiddleware(Trail([], []), req, handler, after, 0).0.security| == 1
  {
  }

  /** A request the view authenticates by its Bearer token is anonymous
      before the view and authenticated after it. A 404 to such a request
      is stored under the authenticated user, as written and as intended
      alike; the request had no ACCESS record, since it was anonymous when
      the middleware first looked. */
  lemma ViewAuthenticatedErrorLogged()
    ensures var req := Request("POST", "/api/enrollments/5/remove_dependent/", Some("Bearer t"), Some(Anonymous),
                               Some("10.0.0.1"), Some("curl"));
      var handler := Returned(Response(404, "Active dependent enrollment not found"));
      var after := Some(Authenticated(User(7, "ann", "EMPLOYER", false, true)));
      var res := AuditMiddlewareAsWritten(Trail([], []), req, handler, after, 0);
      && res.1 == handler
      && res.0.actions == []
      && |res.0.security| == 1
      && res.0.security[0].user == Some(7)
      && res.0.security[0].severity == "MEDIUM"
      && res.0.security[0].action == "ERROR"
  {
  }
}

=== FILE: base.dfy ===
/** Shared vocabulary of the request/response layer: optional values, the
    outcome of a Python call (a value or a raised exception), the request and
    user attributes the middleware and decorators read, and the two string
    operations they rely on (`str.startswith` and `str.split(' ')`). */
module Http {

  datatype Option<+T> = None | Some(value: T)

  /** Exception classes that the modelled code raises or lets escape. */
  datatype ExcKind =
    | IntegrityError          // a database NOT NULL, FOREIGN KEY or UNIQUE constraint
    | ProtectedError          // a PROTECT foreign key refuses a delete
    | ValidationError         // a value that cannot be converted to the field's type
    | ValueError
    | TypeError
    | AttributeError
    | NameError
    | UnboundLocalError
    | KeyError
    | MultipleObjectsReturned
    | InvalidOperation        // a decimal with more digits than the column allows
    | ViewError               // anything raised by code outside the model

  datatype Exc = Exc(kind: ExcKind, message: string)

  /** The result of calling Python code: it returns or it raises. */
  datatype Outcome<+T> = Returned(value: T) | Raised(exc: Exc)

  /** The string `str(e)` of an exception. */
  function Str(e: Exc): string { e.message }

  /** A row of the user table, as far as the modelled code reads it. */
  datatype User = User(id: nat, username: string, userType: string, isStaff: bool, emailVerified: bool)

  /** `request.user`: Django's AnonymousUser or an authenticated User. */
  datatype Actor = Anonymous | Authenticated(user: User)
  {
    predicate IsAuthenticated() { Authenticated? }
  }

  /** The request attributes the middleware and decorators look at; `user`
      is None when no earlier middleware has set the attribute. */
  datatype Request = Request(
    verb: string,
    path: string,
    authorization: Option<string>,
    user: Option<Actor>,
    remoteAddr: Option<string>,
    userAgent: Option<string>)

  datatype Response = Response(status: int, body: string)

  const BearerPrefix: string := "Bearer "

  predicate StartsWith(s: string, prefix: string) {
    |prefix| <= |s| && s[..|prefix|] == prefix
  }

  /** Text of `s` up to (not including) the first `sep`. */
  function FirstField(s: string, sep: char): (r: string)
    ensures sep !in r
    ensures r == s || (|r| < |s| && s[|r|] == sep)
    ensures r == s[..|r|]
  {
    if |s| == 0 then ""
    else if s[0] == sep then ""
    else [s[0]] + FirstField(s[1..], sep)
  }

  /** Python's `s.split(sep)` for a one-character separator: every
      separator ends a field, so empty fields are kept. */
  function Split(s: string, sep: char): (r: seq<string>)
    ensures |r| >= 1
    ensures forall i :: 0 <= i < |r| ==> sep !in r[i]
  {
    if |s| == 0 then [""]
    else if s[0] == sep then [""] + Split(s[1..], sep)
    else
      var rest := Split(s[1..], sep);
      [[s[0]] + rest[0]] + rest[1..]
  }

  /** Python's `sep.join(parts)`. */
  function Join(parts: seq<string>, sep: char): string
    requires |parts| >= 1
  {
    if |parts| == 1 then parts[0] else parts[0] + [sep] + Join(parts[1..], sep)
  }

  /** Splitting and joining back gives the original string. */
  lemma {:induction false} SplitJoin(s: string, sep: char)
    ensures Join(Split(s, sep), sep) == s
    decreases |s|
  {
    if |s| == 0 {
    } else if s[0] == sep {
      SplitJoin(s[1..], sep);
      assert s == [sep] + s[1..];
    } else {
      SplitJoin(s[1..], sep);
      var rest := Split(s[1..], sep);
      if |rest| == 1 {
        assert s == [s[0]] + s[1..];
      } else {
        assert Join(rest, sep) == rest[0] + [sep] + Join(rest[1..], sep);
        assert s == [s[0]] + s[1..];
      }
    }
  }

  /** The first field of a split is the text before the first separator. */
  lemma {:induction false} SplitFirstField(s: string, sep: char)
    ensures Split(s, sep)[0] == FirstField(s, sep)
    decreases |s|
  {
    if |s| > 0 && s[0] != sep {
      SplitFirstField(s[1..], sep);
    }
  }

  /** A field without separators followed by a separator splits off as the
      first field, and the rest is split on its own. */
  lemma {:induction false} SplitAfterField(p: string, sep: char, q: string)
    requires sep !in p
    ensures Split(p + [sep] + q, sep) == [p] + Split(q, sep)
    decreases |p|
  {
    if |p| == 0 {
      assert p + [sep] + q == [sep] + q;
    } else {
      var s := p + [sep] + q;
      SplitAfterField(p[1..], sep, q);
      assert s[0] == p[0] && s[0] != sep;
      assert s[1..] == p[1..] + [sep] + q;
      var rest := Split(s[1..], sep);
      assert rest == [p[1..]] + Split(q, sep);
      assert [s[0]] + rest[0] == p;
    }
  }

  /** `header.split(' ')[1]` for a header known to start with "Bearer ":
      the text after the prefix up to the next space. The header always has
      a second field, so the IndexError the callers guard against cannot
      occur. */
  function BearerToken(header: string): (token: string)
    requires StartsWith(header, BearerPrefix)
    ensures |Split(header, ' ')| >= 2
    ensures token == Split(header, ' ')[1]
    ensures token == FirstField(header[|BearerPrefix|..], ' ')
  {
    var rest := header[|BearerPrefix|..];
    assert header == "Bearer" + [' '] + rest;
    SplitAfterField("Bearer", ' ', rest);
    SplitFirstField(rest, ' ');
    Split(header, ' ')[1]
  }
}

=== FILE: enrollment_views.dfy ===
/** The three endpoints of enrollment/views.py that do more than list or
    save rows: `add_dependent` and `remove_dependent` on an enrollment, and
    the `provider_revenue` report over transactions. */
module EnrollmentViews {

  import opened Http
  import opened Table
  import opened Ledger

  /** A date taken from the request: absent (or JSON null), a string that
      parses as a date, a string that does not, or a JSON value that is not
      a string at all (a number, say), which the date parser cannot take. */
  datatype DateParam = Missing | Given(date: Date) | Malformed | NotText
  {
    /** `DateField.to_python` accepts it: None or a date. */
    predicate Converts() { Missing? || Given? }
  }

  const NotFound: int := 404

  /** `get_object()` on `EnrollmentViewSet` finds the enrollment: the key
      exists and, when the request carries an `employee` query parameter,
      `get_queryset` has kept it because it belongs to that employee. An
      empty parameter is no filter. */
  predicate Visible(s: Store, enrollment: nat, employeeFilter: Option<EmployeeId>) {
    exists i :: 0 <= i < |s.enrollments| && s.enrollments[i].id == enrollment &&
      (employeeFilter.None? || s.enrollments[i].val.employee == employeeFilter.value)
  }

  /** A visible enrollment is a stored one. */
  lemma VisibleIsStored(s: Store, enrollment: nat, employeeFilter: Option<EmployeeId>)
    ensures Visible(s, enrollment, employeeFilter) ==> enrollment in Ids(s.enrollments)
    ensures Visible(s, enrollment, None) <==> enrollment in Ids(s.enrollments)
  {
    if enrollment in Ids(s.enrollments) {
      var i :| 0 <= i < |s.enrollments| && s.enrollments[i].id == enrollment;
      assert Visible(s, enrollment, None);
    }
  }

  /** With keys unique, the `employee` filter hides exactly the enrollments
      of other employees. */
  lemma FilterHidesOtherEmployees(s: Store, i: int, employee: EmployeeId)
    requires Valid(s)
    requires 0 <= i < |s.enrollments|
    ensures Visible(s, s.enrollments[i].id, Some(employee)) <==> s.enrollments[i].val.employee == employee
  {
    if Visible(s, s.enrollments[i].id, Some(employee)) {
      var j :| 0 <= j < |s.enrollments| && s.enrollments[j].id == s.enrollments[i].id &&
               s.enrollments[j].val.employee == employee;
      assert UniqueIds(s.enrollments);
      assert j == i;
    }
  }

  // ---------------------------------------------------------------------
  // add_dependent
  // ---------------------------------------------------------------------

  /** The fields a valid `DependentEnrollmentSerializer` payload supplies. */
  datatype DependentPayload = DependentPayload(dependent: DependentId, startDate: Date, endDate: Option<Date>)

  /** `add_dependent`: 404 when `get_object()` does not find the enrollment
      (missing, or hidden by the `employee` filter), 400 when the payload
      does not validate (None), otherwise one new row bound to this
      enrollment and 201. A second row for an existing (enrollment,
      dependent) pair is refused by the database and the error escapes. */
  function AddDependent(s: Store, enrollment: nat, employeeFilter: Option<EmployeeId>,
                        payload: Option<DependentPayload>): (res: (Store, Outcome<int>))
    requires Valid(s)
    ensures Valid(res.0)
    ensures !Visible(s, enrollment, employeeFilter) ==> res == (s, Returned(NotFound))
    ensures Visible(s, enrollment, employeeFilter) && payload.None? ==> res == (s, Returned(400))
    ensures res.1 == Returned(201) <==>
      Visible(s, enrollment, employeeFilter) && payload.Some? && !HasPair(s.dependents, enrollment, payload.value.dependent)
    ensures Visible(s, enrollment, employeeFilter) && payload.Some? && HasPair(s.dependents, enrollment, payload.value.dependent) ==>
      res.0 == s && res.1.Raised? && res.1.exc.kind == IntegrityError
    ensures res.1 == Returned(201) ==>
      exists id :: id !in Ids(s.dependents) &&
        res.0 == s.(dependents := s.dependents + [Row(id, DependentEnrollment(enrollment, payload.value.dependent,
                                                                              payload.value.startDate, payload.value.endDate))])
    ensures res.1 != Returned(201) ==> res.0 == s
  {
    VisibleIsStored(s, enrollment, employeeFilter);
    if !Visible(s, enrollment, employeeFilter) then (s, Returned(NotFound))
    else if payload.None? then (s, Returned(400))
    else
      var p := payload.value;
      match CreateDependentEnrollment(s, enrollment, p.dependent, p.startDate, p.endDate)
      case Returned((s', _)) => (s', Returned(201))
      case Raised(e) => (s, Raised(e))
  }

  /** `add_dependent` as written: `DependentEnrollmentSerializer` declares
      `dependent` read-only, so even a valid payload never supplies it, and
      saving a row whose NOT NULL `dependent_id` is missing raises. The
      404 and 400 answers are as intended; no row is ever created. */
  function AddDependentAsWritten(s: Store, enrollment: nat, employeeFilter: Option<EmployeeId>,
                                 payload: Option<DependentPayload>): (res: (Store, Outcome<int>))
    requires Valid(s)
    ensures res.0 == s
    ensures !Visible(s, enrollment, employeeFilter) || payload.None? ==>
      res == AddDependent(s, enrollment, employeeFilter, payload)
    ensures Visible(s, enrollment, employeeFilter) && payload.Some? ==> res.1.Raised? && res.1.exc.kind == IntegrityError
  {
    if !Visible(s, enrollment, employeeFilter) then (s, Returned(NotFound))
    else if payload.None? then (s, Returned(400))
    else (s, Raised(Exc(IntegrityError, "NOT NULL constraint failed: enrollment_dependentenrollment.dependent_id")))
  }

  /** The discrepancy: for an existing enrollment with no dependents, a
      valid payload is stored and answered 201 as intended, and raises as
      written. */
  lemma AddDependentWitness()
    ensures var s := Store([Row(1, Plan(1, "Basic", "", 5000, true))],
                           [Row(1, Enrollment(1, 1, None, Pending, 0, None))], [], [], []);
      var payload := Some(DependentPayload(9, 0, None));
      && Valid(s)
      && AddDependent(s, 1, None, payload).1 == Returned(201)
      && AddDependentAsWritten(s, 1, None, payload).1.Raised?
  {
    var s := Store([Row(1, Plan(1, "Basic", "", 5000, true))],
                   [Row(1, Enrollment(1, 1, None, Pending, 0, None))], [], [], []);
    assert 1 in Ids(s.plans) by { assert s.plans[0].id == 1; }
    assert 1 in Ids(s.enrollments) by { assert s.enrollments[0].id == 1; }
    assert Visible(s, 1, None) by { assert s.enrollments[0].id == 1; }
  }

  // ---------------------------------------------------------------------
  // remove_dependent
  // ---------------------------------------------------------------------

  /** The lookup `enrollment.dependent_enrollments.get(dependent_id=d,
      end_date=None)` matches this row. A missing `dependent_id` filters on
      NULL, which no row has. */
  predicate IsOpenRowFor(row: Row<DependentEnrollment>, enrollment: nat, dependent: Option<DependentId>) {
    row.val.enrollment == enrollment && dependent == Some(row.val.dependent) && row.val.IsOpen()
  }

  predicate NoOpenRow(deps: seq<Row<DependentEnrollment>>, enrollment: nat, dependent: Option<DependentId>) {
    forall k :: 0 <= k < |deps| ==> !IsOpenRowFor(deps[k], enrollment, dependent)
  }

  predicate OnlyOpenRow(deps: seq<Row<DependentEnrollment>>, enrollment: nat, dependent: Option<DependentId>, k: int) {
    && 0 <= k < |deps|
    && IsOpenRowFor(deps[k], enrollment, dependent)
    && forall j :: 0 <= j < |deps| && IsOpenRowFor(deps[j], enrollment, dependent) ==> j == k
  }

  predicate SeveralOpenRows(deps: seq<Row<DependentEnrollment>>, enrollment: nat, dependent: Option<DependentId>) {
    exists j, k :: 0 <= j < k < |deps| && IsOpenRowFor(deps[j], enrollment, dependent) && IsOpenRowFor(deps[k], enrollment, dependent)
  }

  /** The value the `end_date` column receives: a missing parameter stores
      NULL, so the row stays open. */
  function StoredEndDate(endDate: DateParam): Option<Date>
    requires endDate.Converts()
  {
    if endDate.Given? then Some(endDate.date) else None
  }

  /** `remove_dependent`. `get_object()` must find the enrollment (else
      404). The one open row for the dependent gets the supplied end date,
      with no check against its start date, and the answer is 200; with no
      open row the answer is 404. Nothing is ever deleted and no other row
      changes. An end date that is not a date makes `save()` raise before
      anything is written: ValidationError for a string that does not
      parse, TypeError for a JSON value that is not a string. */
  method RemoveDependent(s: Store, enrollment: nat, employeeFilter: Option<EmployeeId>,
                         dependent: Option<DependentId>, endDate: DateParam)
    returns (s': Store, r: Outcome<int>)
    ensures r == Returned(NotFound) <==>
      !Visible(s, enrollment, employeeFilter) || NoOpenRow(s.dependents, enrollment, dependent)
    ensures r.Raised? && r.exc.kind == MultipleObjectsReturned <==>
      Visible(s, enrollment, employeeFilter) && SeveralOpenRows(s.dependents, enrollment, dependent)
    ensures r.Raised? && r.exc.kind == ValidationError <==>
      Visible(s, enrollment, employeeFilter) && endDate.Malformed? &&
      exists k :: OnlyOpenRow(s.dependents, enrollment, dependent, k)
    ensures r.Raised? && r.exc.kind == TypeError <==>
      Visible(s, enrollment, employeeFilter) && endDate.NotText? &&
      exists k :: OnlyOpenRow(s.dependents, enrollment, dependent, k)
    ensures r == Returned(200) <==>
      Visible(s, enrollment, employeeFilter) && endDate.Converts() &&
      exists k :: OnlyOpenRow(s.dependents, enrollment, dependent, k)
    ensures r == Returned(200) ==>
      exists k :: OnlyOpenRow(s.dependents, enrollment, dependent, k) &&
        s' == s.(dependents := s.dependents[k := Row(s.dependents[k].id,
                                                     s.dependents[k].val.(endDate := StoredEndDate(endDate)))])
    ensures r != Returned(200) ==> s' == s
    ensures |s'.dependents| == |s.dependents|
    ensures Valid(s) ==> Valid(s') && !(r.Raised? && r.exc.kind == MultipleObjectsReturned)
  {
    if !Visible(s, enrollment, employeeFilter) {
      return s, Returned(NotFound);
    }
    var deps := s.dependents;
    var found: seq<nat> := [];
    var i := 0;
    while i < |deps|
      invariant 0 <= i <= |deps|
      invariant forall a :: 0 <= a < |found| ==> found[a] < i && IsOpenRowFor(deps[found[a]], enrollment, dependent)
      invariant forall k :: 0 <= k < i && IsOpenRowFor(deps[k], enrollment, dependent) ==> k in found
      invariant forall a, b :: 0 <= a < b < |found| ==> found[a] < found[b]
    {
      if IsOpenRowFor(deps[i], enrollment, dependent) {
        found := found + [i];
      }
      i := i + 1;
    }
    if |found| == 0 {
      return s, Returned(NotFound);
    }
    if |found| > 1 {
      assert found[0] < found[1];
      OpenRowsDistinct(s, enrollment, dependent, found[0], found[1]);
      return s, Raised(Exc(MultipleObjectsReturned, "get() returned more than one DependentEnrollment"));
    }
    var k := found[0];
    assert OnlyOpenRow(deps, enrollment, dependent, k);
    if endDate.Malformed? {
      return s, Raised(NotADate());
    }
    if endDate.NotText? {
      return s, Raised(NotAStringDate());
    }
    s' := s.(dependents := deps[k := Row(deps[k].id, deps[k].val.(endDate := StoredEndDate(endDate)))]);
    ClosingKeepsValid(s, k, StoredEndDate(endDate));
    r := Returned(200);
  }

  /** Two open rows for the same (enrollment, dependent) pair cannot both be
      in a valid store. */
  lemma OpenRowsDistinct(s: Store, enrollment: nat, dependent: Option<DependentId>, j: int, k: int)
    requires 0 <= j < k < |s.dependents|
    requires IsOpenRowFor(s.dependents[j], enrollment, dependent) && IsOpenRowFor(s.dependents[k], enrollment, dependent)
    ensures !Valid(s)
  {
    assert SamePair(s.dependents[j].val, s.dependents[k].val);
  }

  /** Changing one dependent row's end date keeps every schema rule. */
  lemma ClosingKeepsValid(s: Store, k: int, endDate: Option<Date>)
    requires 0 <= k < |s.dependents|
    ensures var s' := s.(dependents := s.dependents[k := Row(s.dependents[k].id, s.dependents[k].val.(endDate := endDate))]);
      Valid(s) ==> Valid(s')
  {
    var deps' := s.dependents[k := Row(s.dependents[k].id, s.dependents[k].val.(endDate := endDate))];
    assert Ids(deps') == Ids(s.dependents) by {
      forall x | x in Ids(s.dependents) ensures x in Ids(deps') {
        var i :| 0 <= i < |s.dependents| && s.dependents[i].id == x;
        assert deps'[i].id == x;
      }
    }
    assert forall i :: 0 <= i < |deps'| ==>
      deps'[i].id == s.dependents[i].id && deps'[i].val.enrollment == s.dependents[i].val.enrollment &&
      SamePair(deps'[i].val, s.dependents[i].val);
  }

  /** Once the open row for a dependent has been given an end date, a second
      `remove_dependent` for that dependent finds no open row (and so
      answers 404 and changes nothing). */
  lemma SecondRemovalFindsNothing(s: Store, enrollment: nat, dependent: Option<DependentId>, k: int, date: Date)
    requires OnlyOpenRow(s.dependents, enrollment, dependent, k)
    ensures NoOpenRow(s.dependents[k := Row(s.dependents[k].id, s.dependents[k].val.(endDate := Some(date)))],
                      enrollment, dependent)
  {
    var deps' := s.dependents[k := Row(s.dependents[k].id, s.dependents[k].val.(endDate := Some(date)))];
    forall j | 0 <= j < |deps'| ensures !IsOpenRowFor(deps'[j], enrollment, dependent) {
      if j != k {
        assert deps'[j] == s.dependents[j];
      }
    }
  }

  // ---------------------------------------------------------------------
  // provider_revenue
  // ---------------------------------------------------------------------

  /** The filter of `provider_revenue`: a completed provider payment whose
      whole billing period lies inside [start, end]. */
  predicate Counted(t: Transaction, start: Date, end: Date) {
    && t.kind == ProviderPayment
    && t.status == Completed
    && t.periodStart >= start
    && t.periodEnd <= end
  }

  /** SQL `SUM(amount)` over the counted rows: NULL when no row counts. */
  function RevenueOf(txs: seq<Row<Transaction>>, start: Date, end: Date): Option<int>
  {
    if |txs| == 0 then None
    else
      var prev := RevenueOf(txs[..|txs| - 1], start, end);
      var t := txs[|txs| - 1].val;
      if !Counted(t, start, end) then prev
      else if prev.None? then Some(t.amount)
      else Some(prev.value + t.amount)
  }

  /** The report is NULL exactly when no transaction passes the filter. */
  lemma {:induction false} RevenueNullIffNoneCounted(txs: seq<Row<Transaction>>, start: Date, end: Date)
    ensures RevenueOf(txs, start, end).None? <==> forall i :: 0 <= i < |txs| ==> !Counted(txs[i].val, start, end)
  {
    if |txs| > 0 {
      var init := txs[..|txs| - 1];
      RevenueNullIffNoneCounted(init, start, end);
      assert forall i :: 0 <= i < |init| ==> init[i] == txs[i];
    }
  }

  /** A transaction the filter rejects leaves the report unchanged. */
  lemma RevenueIgnoresUncounted(txs: seq<Row<Transaction>>, t: Row<Transaction>, start: Date, end: Date)
    requires !Counted(t.val, start, end)
    ensures RevenueOf(txs + [t], start, end) == RevenueOf(txs, start, end)
  {
    assert (txs + [t])[..|txs|] == txs;
  }

  /** A counted transaction adds its amount to the report. */
  lemma RevenueAddsCounted(txs: seq<Row<Transaction>>, t: Row<Transaction>, start: Date, end: Date)
    requires Counted(t.val, start, end)
    ensures RevenueOf(txs + [t], start, end) ==
      Some(t.val.amount + (if RevenueOf(txs, start, end).None? then 0 else RevenueOf(txs, start, end).value))
  {
    assert (txs + [t])[..|txs|] == txs;
  }

  /** A completed provider payment whose billing period only partly
      overlaps the requested range is not counted. */
  lemma PartialOverlapExcluded(txs: seq<Row<Transaction>>, t: Row<Transaction>, start: Date, end: Date)
    requires t.val.periodStart < start || t.val.periodEnd > end
    ensures RevenueOf(txs + [t], start, end) == RevenueOf(txs, start, end)
  {
    RevenueIgnoresUncounted(txs, t, start, end);
  }

  function NoneAsQueryValue(): Exc { Exc(ValueError, "Cannot use None as a query value") }
  function NotADate(): Exc { Exc(ValidationError, "value has an invalid date format") }
  function NotAStringDate(): Exc { Exc(TypeError, "fromisoformat: argument must be str") }

  /** Building the filter fails on a missing or unparseable date. Django
      builds the lookups in the sorted order of their keyword names, so
      `billing_period_end__lte` is checked before `billing_period_start__gte`. */
  function FilterError(start: DateParam, end: DateParam): Option<Exc>
  {
    if end.Missing? then Some(NoneAsQueryValue())
    else if end.Malformed? then Some(NotADate())
    else if end.NotText? then Some(NotAStringDate())
    else if start.Missing? then Some(NoneAsQueryValue())
    else if start.Malformed? then Some(NotADate())
    else if start.NotText? then Some(NotAStringDate())
    else None
  }

  /** The error one bad date raises once its lookup is built: None is not
      a query value, an unparseable string is not a date, and anything but
      a string cannot be parsed at all. */
  function ParamErrorKind(p: DateParam): ExcKind {
    match p
    case Missing => ValueError
    case NotText => TypeError
    case _ => ValidationError
  }

  /** The kind of error a bad date pair raises: the end date's problem
      decides, and the start date's only when the end date is fine. */
  function DateErrorKind(start: DateParam, end: DateParam): ExcKind {
    ParamErrorKind(if end.Given? then start else end)
  }

  /** `provider_revenue` as intended: the sum of the amounts of the
      counted transactions, or NULL when there are none. Read-only: it
      takes the transactions and returns only the report. */
  method ProviderRevenue(txs: seq<Row<Transaction>>, start: DateParam, end: DateParam) returns (r: Outcome<Option<int>>)
    ensures r.Raised? <==> !start.Given? || !end.Given?
    ensures r.Raised? ==> r.exc.kind == DateErrorKind(start, end)
    ensures r.Returned? ==> r.value == RevenueOf(txs, start.date, end.date)
    ensures r.Returned? ==>
      (r.value.None? <==> forall i :: 0 <= i < |txs| ==> !Counted(txs[i].val, start.date, end.date))
  {
    var err := FilterError(start, end);
    if err.Some? {
      return Raised(err.value);
    }
    var total: Option<int> := None;
    var i := 0;
    while i < |txs|
      invariant 0 <= i <= |txs|
      invariant total == RevenueOf(txs[..i], start.date, end.date)
    {
      assert txs[..i + 1][..i] == txs[..i];
      var t := txs[i].val;
      if Counted(t, start.date, end.date) {
        total := Some(if total.None? then t.amount else total.value + t.amount);
      }
      i := i + 1;
    }
    assert txs[..|txs|] == txs;
    RevenueNullIffNoneCounted(txs, start.date, end.date);
    r := Returned(total);
  }

  /** `provider_revenue` as written: `models.Sum` names a module the file
      never imports, so once the filter is built the aggregate raises
      NameError. */
  function ProviderRevenueAsWritten(txs: seq<Row<Transaction>>, start: DateParam, end: DateParam): (r: Outcome<Option<int>>)
    ensures r.Raised?
    ensures start.Given? && end.Given? ==> r.exc.kind == NameError
    ensures !start.Given? || !end.Given? ==> r.exc.kind == DateErrorKind(start, end)
  {
    var err := FilterError(start, end);
    if err.Some? then Raised(err.value)
    else Raised(Exc(NameError, "name 'models' is not defined"))
  }

  /** The discrepancy: with valid dates and one counted transaction, the
      intended report is that transaction's amount, while the code as
      written raises NameError. */
  lemma RevenueNameErrorWitness()
    ensures var t := Row(1, Transaction(1, ProviderPayment, 5000, Completed, 10, 40, None, None, "R-1", ""));
      && RevenueOf([t], 1, 100) == Some(5000)
      && ProviderRevenueAsWritten([t], Given(1), Given(100)).exc.kind == NameError
  {
    var t := Row(1, Transaction(1, ProviderPayment, 5000, Completed, 10, 40, None, None, "R-1", ""));
    assert [t][..0] == [];
  }
}

=== FILE: gating.dfy ===
/** Request gating: the middleware of core/middleware.py and
    accounts/middleware.py, the view decorators of accounts/decorators.py
    and the permission classes of accounts/permissions.py. Token checks and
    user lookups are foreign; they are parameters. */
module Gating {

  import opened Http
  import Audit
  import AuditWrappers

  /** What a `process_request` hook decides: continue (`return None`) or
      answer at once. */
  datatype Gate = Continue | Respond(resp: Response)

  // ---------------------------------------------------------------------
  // core/middleware.py: JWTAuthenticationMiddleware.process_request
  // ---------------------------------------------------------------------

  const JwtExemptPrefixes: seq<string> := [
    "/admin/", "/api/token/", "/api/accounts/register/", "/api/accounts/password/reset/",
    "/api/accounts/verify-email/", "/api/health/"]

  /** The email check skips the same paths except the health check. */
  const EmailExemptPrefixes: seq<string> := [
    "/admin/", "/api/token/", "/api/accounts/register/", "/api/accounts/password/reset/",
    "/api/accounts/verify-email/"]

  predicate ExemptBy(path: string, prefixes: seq<string>) {
    exists i :: 0 <= i < |prefixes| && StartsWith(path, prefixes[i])
  }

  function NoCredentials(): Response { Response(401, "Authentication credentials were not provided.") }
  function BadToken(): Response { Response(401, "Invalid or expired token.") }

  /** The header passes the `startswith('Bearer ')` test (an absent or
      empty header does not). */
  predicate HasBearer(header: Option<string>) {
    header.Some? && StartsWith(header.value, BearerPrefix)
  }

  /** An exempt path continues without inspection. Otherwise a header that
      is missing or not a Bearer header gets 401 "not provided"; the token
      is the second space-separated field, and a token the validator
      (`accepts`, standing for `AccessToken(token)`) rejects gets 401
      "Invalid or expired token"; an accepted token continues. */
  function CoreJwtGate(path: string, header: Option<string>, accepts: string -> bool): (g: Gate)
    ensures ExemptBy(path, JwtExemptPrefixes) ==> g == Continue
    ensures !ExemptBy(path, JwtExemptPrefixes) && !HasBearer(header) ==> g == Respond(NoCredentials())
    ensures !ExemptBy(path, JwtExemptPrefixes) && HasBearer(header) ==>
      (g == Continue <==> accepts(FirstField(header.value[|BearerPrefix|..], ' '))) &&
      (g != Continue ==> g == Respond(BadToken()))
    ensures g.Respond? ==> g.resp.status == 401
  {
    if ExemptBy(path, JwtExemptPrefixes) then Continue
    else if !HasBearer(header) then Respond(NoCredentials())
    else if accepts(BearerToken(header.value)) then Continue
    else Respond(BadToken())
  }

  /** The email exemptions are the JWT exemptions minus the health check. */
  lemma EmailExemptionsDropHealth()
    ensures |EmailExemptPrefixes| == |JwtExemptPrefixes| - 1
    ensures JwtExemptPrefixes == EmailExemptPrefixes + ["/api/health/"]
    ensures forall path :: ExemptBy(path, EmailExemptPrefixes) ==> ExemptBy(path, JwtExemptPrefixes)
    ensures ExemptBy("/api/health/", JwtExemptPrefixes) && !ExemptBy("/api/health/", EmailExemptPrefixes)
  {
    assert StartsWith("/api/health/", JwtExemptPrefixes[5]);
    forall path | ExemptBy(path, EmailExemptPrefixes) ensures ExemptBy(path, JwtExemptPrefixes) {
      var i :| 0 <= i < |EmailExemptPrefixes| && StartsWith(path, EmailExemptPrefixes[i]);
      assert JwtExemptPrefixes[i] == EmailExemptPrefixes[i];
    }
    var h := "/api/health/";
    assert !StartsWith(h, EmailExemptPrefixes[0]) by { assert h[2] != EmailExemptPrefixes[0][2]; }
    assert !StartsWith(h, EmailExemptPrefixes[1]) by { assert h[5] != EmailExemptPrefixes[1][5]; }
    assert !StartsWith(h, EmailExemptPrefixes[2]) by { assert h[5] != EmailExemptPrefixes[2][5]; }
    assert !StartsWith(h, EmailExemptPrefixes[3]) by { assert h[5] != EmailExemptPrefixes[3][5]; }
    assert !StartsWith(h, EmailExemptPrefixes[4]) by { assert h[5] != EmailExemptPrefixes[4][5]; }
  }

  // ---------------------------------------------------------------------
  // core/middleware.py: EmailVerificationMiddleware.process_request
  // ---------------------------------------------------------------------

  function Unverified(): Response { Response(403, "Please verify your email address.") }

  /** The check as intended: on a non-exempt path an authenticated user
      whose email is unverified gets 403; unauthenticated requests and
      verified users continue. */
  function EmailGate(path: string, user: Option<Actor>): (g: Gate)
    ensures g != Continue <==>
      !ExemptBy(path, EmailExemptPrefixes) && user.Some? && user.value.Authenticated? && !user.value.user.emailVerified
    ensures g != Continue ==> g == Respond(Unverified())
  {
    if ExemptBy(path, EmailExemptPrefixes) then Continue
    else if user.Some? && user.value.Authenticated? && !user.value.user.emailVerified then Respond(Unverified())
    else Continue
  }

  /** The check as written: the user model declares no `email_verified`
      field, so reading it raises AttributeError for every authenticated
      request on a non-exempt path. */
  function EmailGateAsWritten(path: string, user: Option<Actor>): (r: Outcome<Gate>)
    ensures r.Raised? <==> !ExemptBy(path, EmailExemptPrefixes) && user.Some? && user.value.Authenticated?
    ensures r.Returned? ==> r.value == Continue
  {
    if ExemptBy(path, EmailExemptPrefixes) then Returned(Continue)
    else if user.Some? && user.value.Authenticated? then
      Raised(Exc(AttributeError, "'User' object has no attribute 'email_verified'"))
    else Returned(Continue)
  }

  /** The discrepancy: a verified user asking for a non-exempt path is let
      through by the intended check and gets an AttributeError as written. */
  lemma EmailAttributeWitness()
    ensures var u := Some(Authenticated(User(7, "ann", "EMPLOYER", false, true)));
      EmailGate("/api/enrollments/", u) == Continue && EmailGateAsWritten("/api/enrollments/", u).Raised?
  {
    var p := "/api/enrollments/";
    assert !ExemptBy(p, EmailExemptPrefixes) by {
      assert !StartsWith(p, EmailExemptPrefixes[0]) by { assert p[2] != EmailExemptPrefixes[0][2]; }
      assert !StartsWith(p, EmailExemptPrefixes[1]) by { assert p[5] != EmailExemptPrefixes[1][5]; }
      assert !StartsWith(p, EmailExemptPrefixes[2]) by { assert p[5] != EmailExemptPrefixes[2][5]; }
      assert !StartsWith(p, EmailExemptPrefixes[3]) by { assert p[5] != EmailExemptPrefixes[3][5]; }
      assert !StartsWith(p, EmailExemptPrefixes[4]) by { assert p[5] != EmailExemptPrefixes[4][5]; }
    }
  }

  // ---------------------------------------------------------------------
  // core/middleware.py: RequestLoggingMiddleware.process_response
  // ---------------------------------------------------------------------

  datatype Level = Info | Error

  datatype LogLine = LogLine(level: Level, user: string, status: int)

  /** Failed requests are logged at error level, all others at info. */
  function LevelFor(status: int): (l: Level)
    ensures l == Error <==> status >= 400
  {
    if status >= 400 then Error else Info
  }

  /** `process_response`: one log line when the request carries a start
      time (none otherwise), naming the authenticated user or "anonymous";
      the response is returned unchanged. `req` is the request as the view
      left it, its user included. */
  function RequestLogging(hasStartTime: bool, req: Request, resp: Response): (res: (Response, Option<LogLine>))
    ensures res.0 == resp
    ensures res.1.Some? <==> hasStartTime
    ensures res.1.Some? ==> res.1.value.status == resp.status && (res.1.value.level == Error <==> resp.status >= 400)
    ensures res.1.Some? ==>
      res.1.value.user == (if req.user.Some? && req.user.value.Authenticated? then req.user.value.user.username else "anonymous")
  {
    if !hasStartTime then (resp, None)
    else
      var who := if req.user.Some? && req.user.value.Authenticated? then req.user.value.user.username else "anonymous";
      (resp, Some(LogLine(LevelFor(resp.status), who, resp.status)))
  }

  /** The request log and the security audit log agree on what a failure
      is: given a non-empty client address and an agent, a response is logged at error
      level exactly when the audit middleware adds a security event. */
  lemma LogLevelMatchesSecurityLog(trail: Audit.Trail, req: Request, resp: Response, user: Option<Actor>,
                                   now: Audit.Time)
    requires Audit.ClientKnown(req)
    ensures var logged := AuditWrappers.AuditMiddleware(trail, req, Returned(resp), user, now).0;
      && (LevelFor(resp.status) == Error <==> |logged.security| == |trail.security| + 1)
      && (RequestLogging(true, req, resp).1.value.level == Error <==> |logged.security| == |trail.security| + 1)
  {
  }

  // ---------------------------------------------------------------------
  // accounts/middleware.py: JWTAuthenticationMiddleware.__call__
  // ---------------------------------------------------------------------

  /** What `jwt.decode` makes of a token: invalid, or a payload whose
      `user_id` entry may be absent. */
  datatype Decoded = Undecodable | Payload(userId: Option<int>)

  /** The middleware either hands the (possibly updated) request to the
      next layer or answers itself. */
  datatype Step = CallHandler(req: Request) | Answer(resp: Response)

  function InvalidToken(): Response { Response(401, "Invalid token") }

  /** The shared part: no Bearer header means the request goes on
      unchanged; a payload naming a known user binds that user and goes on;
      a payload naming an unknown user gets 401; a payload without
      `user_id` raises KeyError, which the handler does not catch. The
      undecodable case is left to the caller. */
  function AccountsJwtWith(req: Request, decode: string -> Decoded, users: map<int, User>, onUndecodable: Outcome<Step>)
    : (r: Outcome<Step>)
  {
    if !HasBearer(req.authorization) then Returned(CallHandler(req))
    else
      match decode(BearerToken(req.authorization.value))
      case Undecodable => onUndecodable
      case Payload(None) => Raised(Exc(KeyError, "'user_id'"))
      case Payload(Some(id)) =>
        if id in users then Returned(CallHandler(req.(user := Some(Authenticated(users[id])))))
        else Returned(Answer(InvalidToken()))
  }

  /** As written: when `jwt.decode` fails, evaluating the `except` tuple
      reads the local `User` before `get_user_model()` has assigned it, so
      UnboundLocalError escapes instead of the intended 401. In every other
      case it agrees with `AccountsJwt`. */
  function AccountsJwtAsWritten(req: Request, decode: string -> Decoded, users: map<int, User>): (r: Outcome<Step>)
    ensures var undecodable := HasBearer(req.authorization) &&
                               decode(FirstField(req.authorization.value[|BearerPrefix|..], ' ')).Undecodable?;
      && (undecodable ==> r.Raised? && r.exc.kind == UnboundLocalError)
      && (!undecodable ==> r == AccountsJwt(req, decode, users))
  {
    AccountsJwtWith(req, decode, users, Raised(Exc(UnboundLocalError, "local variable 'User' referenced before assignment")))
  }

  /** As intended: an undecodable token gets 401 'Invalid token' and never
      reaches the handler. */
  function AccountsJwt(req: Request, decode: string -> Decoded, users: map<int, User>): (r: Outcome<Step>)
    ensures !HasBearer(req.authorization) ==> r == Returned(CallHandler(req))
    ensures HasBearer(req.authorization) ==>
      var d := decode(FirstField(req.authorization.value[|BearerPrefix|..], ' '));
      && (d.Undecodable? ==> r == Returned(Answer(InvalidToken())))
      && (d.Payload? && d.userId.Some? && d.userId.value !in users ==> r == Returned(Answer(InvalidToken())))
      && (d.Payload? && d.userId.Some? && d.userId.value in users ==>
            r == Returned(CallHandler(req.(user := Some(Authenticated(users[d.userId.value]))))))
      && (d.Payload? && d.userId.None? ==> r.Raised? && r.exc.kind == KeyError)
    ensures r.Returned? && r.value.CallHandler? ==>
      r.value.req == req || (HasBearer(req.authorization) && r.value.req == req.(user := r.value.req.user) &&
                             r.value.req.user.Some? && r.value.req.user.value.Authenticated?)
  {
    AccountsJwtWith(req, decode, users, Returned(Answer(InvalidToken())))
  }

  /** The discrepancy: a Bearer header whose token does not decode raises
      as written, and is answered 401 as intended. */
  lemma UnboundUserWitness(users: map<int, User>)
    ensures var req := Request("GET", "/api/enrollments/", Some("Bearer garbage"), Some(Anonymous), None, None);
      var decode := (t: string) => Undecodable;
      && AccountsJwtAsWritten(req, decode, users).Raised?
      && AccountsJwtAsWritten(req, decode, users).exc.kind == UnboundLocalError
      && AccountsJwt(req, decode, users) == Returned(Answer(InvalidToken()))
  {
    var h := "Bearer garbage";
    assert StartsWith(h, BearerPrefix) by { assert h[..7] == BearerPrefix; }
  }

  // ---------------------------------------------------------------------
  // accounts/decorators.py
  // ---------------------------------------------------------------------

  /** A decorated view either runs (with the request as given) or is
      answered by the decorator. */
  datatype Guarded<R> = Ran(result: R) | Refused(resp: Response)

  function AuthRequired(): Response { Response(401, "Authentication required") }
  function PermissionDenied(): Response { Response(403, "Permission denied") }
  function OwnershipUnknown(): Response { Response(403, "Object ownership cannot be verified") }

  /** `require_user_type(*allowed)`: 401 for an unauthenticated request,
      whatever is allowed; 403 for an authenticated user of another type;
      otherwise the view runs on the unchanged request. `user` is
      `request.user`, as the authentication middleware set it. */
  function RequireUserType<R>(allowed: seq<string>, user: Actor, req: Request, view: Request -> R): (g: Guarded<R>)
    ensures user.Anonymous? ==> g == Refused(AuthRequired())
    ensures user.Authenticated? && user.user.userType !in allowed ==> g == Refused(PermissionDenied())
    ensures g.Ran? <==> user.Authenticated? && user.user.userType in allowed
    ensures g.Ran? ==> g.result == view(req)
  {
    if !user.IsAuthenticated() then Refused(AuthRequired())
    else if user.user.userType !in allowed then Refused(PermissionDenied())
    else Ran(view(req))
  }

  /** The object a view's `get_object()` returns, as far as ownership is
      concerned: no `user` attribute, or a (nullable) owning user. */
  datatype OwnedObject = NoUserField | OwnedBy(owner: Option<nat>)

  /** Django compares model instances by key; AnonymousUser equals no row. */
  predicate IsOwner(owner: Option<nat>, user: Actor) {
    user.Authenticated? && owner == Some(user.user.id)
  }

  /** AnonymousUser has `is_staff == False`. */
  predicate IsStaff(user: Actor) {
    user.Authenticated? && user.user.isStaff
  }

  /** `require_object_ownership()` given the object: 403 when the object
      has no `user` attribute, even for staff; 403 when the requester is
      neither the owner nor staff; otherwise the view runs. `user` is
      `request.user`, as the authentication middleware set it. */
  function RequireObjectOwnership<R>(obj: OwnedObject, user: Actor, req: Request, view: Request -> R): (g: Guarded<R>)
    ensures obj.NoUserField? ==> g == Refused(OwnershipUnknown())
    ensures obj.OwnedBy? ==>
      (g.Ran? <==> IsOwner(obj.owner, user) || IsStaff(user)) &&
      (g.Refused? ==> g == Refused(PermissionDenied()))
    ensures g.Ran? ==> g.result == view(req)
  {
    match obj
    case NoUserField => Refused(OwnershipUnknown())
    case OwnedBy(owner) =>
      if !IsOwner(owner, user) && !IsStaff(user) then Refused(PermissionDenied())
      else Ran(view(req))
  }

  /** `require_object_ownership()` as written: line 30 asks the decorated
      function itself for `get_object`, which a function does not have, so
      every call raises before any check. */
  function RequireObjectOwnershipAsWritten<R>(user: Actor, req: Request, view: Request -> R): (r: Outcome<Guarded<R>>)
    ensures r.Raised? && r.exc.kind == AttributeError
  {
    Raised(Exc(AttributeError, "'function' object has no attribute 'get_object'"))
  }

  /** The discrepancy: the owner of an object is let through by the
      intended check, while the code as written raises for the same call. */
  lemma OwnershipLookupWitness(view: Request -> int)
    ensures var u := Authenticated(User(3, "owner", "EMPLOYER", false, true));
      var req := Request("GET", "/api/employers/1/", None, Some(u), None, None);
      && RequireObjectOwnership(OwnedBy(Some(3)), u, req, view) == Ran(view(req))
      && RequireObjectOwnershipAsWritten(u, req, view).Raised?
  {
  }

  // ---------------------------------------------------------------------
  // accounts/permissions.py
  // ---------------------------------------------------------------------

  /** The four role permission classes, named by the user type each one
      requires. */
  datatype Role = Employer | Provider | Broker | Admin
  {
    /** The `user_type` value the class compares against. */
    function Code(): (c: string)
      ensures c in {"EMPLOYER", "PROVIDER", "BROKER", "ADMIN"}
    {
      match this
      case Employer => "EMPLOYER"
      case Provider => "PROVIDER"
      case Broker => "BROKER"
      case Admin => "ADMIN"
    }
  }

  /** The role a stored `user_type` value names, if any. */
  function RoleOf(t: string): (r: Option<Role>)
    ensures r.Some? <==> t in {"EMPLOYER", "PROVIDER", "BROKER", "ADMIN"}
    ensures r.Some? ==> r.value.Code() == t
  {
    if t == "EMPLOYER" then Some(Employer)
    else if t == "PROVIDER" then Some(Provider)
    else if t == "BROKER" then Some(Broker)
    else if t == "ADMIN" then Some(Admin)
    else None
  }

  /** Every role's code reads back as that role. */
  lemma RoleRoundTrip(role: Role)
    ensures RoleOf(role.Code()) == Some(role)
  {
  }

  /** `has_permission` of IsEmployer, IsProvider, IsBroker and IsAdmin:
      authenticated, and the stored user type names this role. */
  function HasPermission(role: Role, user: Actor): (b: bool)
    ensures b <==> user.Authenticated? && RoleOf(user.user.userType) == Some(role)
  {
    user.IsAuthenticated() && user.user.userType == role.Code()
  }

  /** `@require_user_type(code)` with a single role code admits exactly the
      users that role's permission class admits. */
  lemma RequireUserTypeMatchesRole(role: Role, user: Actor, req: Request, view: Request -> int)
    ensures RequireUserType([role.Code()], user, req, view).Ran? <==> HasPermission(role, user)
  {
    if user.Authenticated? && user.user.userType == role.Code() {
      RoleRoundTrip(role);
    }
  }

  /** No user passes two different role checks, and an unauthenticated
      request passes none. */
  lemma AtMostOneRole(user: Actor)
    ensures forall r1: Role, r2: Role :: HasPermission(r1, user) && HasPermission(r2, user) ==> r1 == r2
    ensures user.Anonymous? ==> forall r: Role :: !HasPermission(r, user)
  {
  }

  /** `IsOwnerOrAdmin.has_object_permission`: any user of type ADMIN is
      granted (staff status plays no part); anyone else only for an object
      whose `user` is the requester. AnonymousUser has no `user_type`, so
      the check raises for it. */
  function IsOwnerOrAdmin(user: Actor, obj: OwnedObject): (r: Outcome<bool>)
    ensures r.Raised? <==> user.Anonymous?
    ensures user.Authenticated? && user.user.userType == "ADMIN" ==> r == Returned(true)
    ensures user.Authenticated? && user.user.userType != "ADMIN" ==>
      (r == Returned(true) <==> obj.OwnedBy? && obj.owner == Some(user.user.id))
  {
    match user
    case Anonymous => Raised(Exc(AttributeError, "'AnonymousUser' object has no attribute 'user_type'"))
    case Authenticated(u) =>
      if u.userType == "ADMIN" then Returned(true)
      else Returned(obj.OwnedBy? && obj.owner == Some(u.id))
  }

  /** Staff status grants nothing here: a staff user of another type who
      does not own the object is refused. */
  lemma StaffIsNotAdmin(u: User, obj: OwnedObject)
    requires u.isStaff && u.userType != "ADMIN"
    requires !(obj.OwnedBy? && obj.owner == Some(u.id))
    ensures IsOwnerOrAdmin(Authenticated(u), obj) == Returned(false)
    ensures RequireObjectOwnership(obj, Authenticated(u), Request("GET", "/", None, None, None, None), (r: Request) => 0) ==
      (if obj.NoUserField? then Refused(OwnershipUnknown()) else Ran(0))
  {
  }
}

=== FILE: ledger.dfy ===
/** The enrollment ledger as the database holds it (enrollment/models.py):
    provider plans, enrollments, dependent enrollments, transactions and
    their itemised details, with the rules the schema enforces. Amounts are
    integer cents; dates are day numbers. */
module Ledger {

  import opened Http
  import opened Table

  type Date = int

  /** A `DecimalField(max_digits=10, decimal_places=2)` amount, in cents. */
  type Cents = int

  /** Ten digits with two after the point: at most 99999999.99. */
  const MaxCents: int := 9_999_999_999

  predicate FitsColumn(c: Cents) { -MaxCents <= c <= MaxCents }

  /** Rows of tables outside this model, carried as bare keys. */
  type ProviderId = nat
  type EmployeeId = nat
  type BrokerId = nat
  type DependentId = nat

  // ---------------------------------------------------------------------
  // Enumerations and their stored codes
  // ---------------------------------------------------------------------

  const EnrollmentStatusCodes: set<string> := {"PENDING", "ACTIVE", "INACTIVE", "CANCELLED"}

  datatype EnrollmentStatus = Pending | Active | Inactive | Cancelled
  {
    /** The code stored in the `status` column. */
    function Code(): (c: string)
      ensures c in EnrollmentStatusCodes
      ensures ParseEnrollmentStatus(c) == Some(this)
    {
      match this
      case Pending => "PENDING"
      case Active => "ACTIVE"
      case Inactive => "INACTIVE"
      case Cancelled => "CANCELLED"
    }
  }

  /** Reads a stored status code; codes outside the choices are rejected. */
  function ParseEnrollmentStatus(c: string): (r: Option<EnrollmentStatus>)
    ensures r.Some? <==> c in EnrollmentStatusCodes
  {
    if c == "PENDING" then Some(Pending)
    else if c == "ACTIVE" then Some(Active)
    else if c == "INACTIVE" then Some(Inactive)
    else if c == "CANCELLED" then Some(Cancelled)
    else None
  }

  /** A status left unspecified on creation. */
  const DefaultEnrollmentStatus: EnrollmentStatus := Pending

  const TransactionTypeCodes: set<string> := {"PROVIDER", "BROKER"}

  datatype TransactionType = ProviderPayment | BrokerCommission
  {
    function Code(): (c: string)
      ensures c in TransactionTypeCodes
      ensures ParseTransactionType(c) == Some(this)
    {
      match this
      case ProviderPayment => "PROVIDER"
      case BrokerCommission => "BROKER"
    }
  }

  function ParseTransactionType(c: string): (r: Option<TransactionType>)
    ensures r.Some? <==> c in TransactionTypeCodes
  {
    if c == "PROVIDER" then Some(ProviderPayment)
    else if c == "BROKER" then Some(BrokerCommission)
    else None
  }

  const TransactionStatusCodes: set<string> := {"PENDING", "COMPLETED", "FAILED", "REFUNDED"}

  datatype TransactionStatus = PaymentPending | Completed | Failed | Refunded
  {
    function Code(): (c: string)
      ensures c in TransactionStatusCodes
      ensures ParseTransactionStatus(c) == Some(this)
    {
      match this
      case PaymentPending => "PENDING"
      case Completed => "COMPLETED"
      case Failed => "FAILED"
      case Refunded => "REFUNDED"
    }
  }

  function ParseTransactionStatus(c: string): (r: Option<TransactionStatus>)
    ensures r.Some? <==> c in TransactionStatusCodes
  {
    if c == "PENDING" then Some(PaymentPending)
    else if c == "COMPLETED" then Some(Completed)
    else if c == "FAILED" then Some(Failed)
    else if c == "REFUNDED" then Some(Refunded)
    else None
  }

  const DefaultTransactionStatus: TransactionStatus := PaymentPending

  /** Distinct members of each enumeration store distinct codes, so a stored
      code determines the member. */
  lemma {:induction false} CodesInjective()
    ensures forall a: EnrollmentStatus, b: EnrollmentStatus :: a.Code() == b.Code() ==> a == b
    ensures forall a: TransactionType, b: TransactionType :: a.Code() == b.Code() ==> a == b
    ensures forall a: TransactionStatus, b: TransactionStatus :: a.Code() == b.Code() ==> a == b
  {
    forall a: EnrollmentStatus, b: EnrollmentStatus | a.Code() == b.Code() ensures a == b {
      assert ParseEnrollmentStatus(a.Code()) == Some(a);
    }
    forall a: TransactionType, b: TransactionType | a.Code() == b.Code() ensures a == b {
      assert ParseTransactionType(a.Code()) == Some(a);
    }
    forall a: TransactionStatus, b: TransactionStatus | a.Code() == b.Code() ensures a == b {
      assert ParseTransactionStatus(a.Code()) == Some(a);
    }
  }

  // ---------------------------------------------------------------------
  // Records
  // ---------------------------------------------------------------------

  datatype Plan = Plan(provider: ProviderId, name: string, description: string, monthlyAmount: Cents, isActive: bool)

  datatype Enrollment = Enrollment(
    plan: nat,
    employee: EmployeeId,
    broker: Option<BrokerId>,
    status: EnrollmentStatus,
    startDate: Date,
    endDate: Option<Date>)

  datatype DependentEnrollment = DependentEnrollment(
    enrollment: nat,
    dependent: DependentId,
    startDate: Date,
    endDate: Option<Date>)
  {
    /** Still enrolled: no end date recorded. */
    predicate IsOpen() { endDate.None? }
  }

  datatype Transaction = Transaction(
    enrollment: nat,
    kind: TransactionType,
    amount: Cents,
    status: TransactionStatus,
    periodStart: Date,
    periodEnd: Date,
    provider: Option<ProviderId>,
    broker: Option<BrokerId>,
    referenceId: string,
    notes: string)

  datatype TransactionDetail = TransactionDetail(
    transaction: nat,
    description: string,
    amount: Cents,
    dependentEnrollment: Option<nat>)

  datatype Store = Store(
    plans: seq<Row<Plan>>,
    enrollments: seq<Row<Enrollment>>,
    dependents: seq<Row<DependentEnrollment>>,
    transactions: seq<Row<Transaction>>,
    details: seq<Row<TransactionDetail>>)

  // ---------------------------------------------------------------------
  // The schema's invariant
  // ---------------------------------------------------------------------

  predicate KeysUnique(s: Store) {
    && UniqueIds(s.plans)
    && UniqueIds(s.enrollments)
    && UniqueIds(s.dependents)
    && UniqueIds(s.transactions)
    && UniqueIds(s.details)
  }

  /** Every foreign key names an existing row. */
  predicate ReferencesResolve(s: Store) {
    && (forall i :: 0 <= i < |s.enrollments| ==> s.enrollments[i].val.plan in Ids(s.plans))
    && (forall i :: 0 <= i < |s.dependents| ==> s.dependents[i].val.enrollment in Ids(s.enrollments))
    && (forall i :: 0 <= i < |s.transactions| ==> s.transactions[i].val.enrollment in Ids(s.enrollments))
    && (forall i :: 0 <= i < |s.details| ==> s.details[i].val.transaction in Ids(s.transactions))
    && (forall i :: 0 <= i < |s.details| && s.details[i].val.dependentEnrollment.Some? ==>
          s.details[i].val.dependentEnrollment.value in Ids(s.dependents))
  }

  predicate SamePair(a: DependentEnrollment, b: DependentEnrollment) {
    a.enrollment == b.enrollment && a.dependent == b.dependent
  }

  /** `unique_together = ['enrollment', 'dependent']`. */
  predicate DependentPairsUnique(deps: seq<Row<DependentEnrollment>>) {
    forall i, j :: 0 <= i < j < |deps| ==> !SamePair(deps[i].val, deps[j].val)
  }

  /** `reference_id` is declared `unique=True`. */
  predicate ReferenceIdsUnique(txs: seq<Row<Transaction>>) {
    forall i, j :: 0 <= i < j < |txs| ==> txs[i].val.referenceId != txs[j].val.referenceId
  }

  predicate AmountsFit(s: Store) {
    && (forall i :: 0 <= i < |s.plans| ==> FitsColumn(s.plans[i].val.monthlyAmount))
    && (forall i :: 0 <= i < |s.transactions| ==> FitsColumn(s.transactions[i].val.amount))
    && (forall i :: 0 <= i < |s.details| ==> FitsColumn(s.details[i].val.amount))
  }

  predicate Valid(s: Store) {
    && KeysUnique(s)
    && ReferencesResolve(s)
    && DependentPairsUnique(s.dependents)
    && ReferenceIdsUnique(s.transactions)
    && AmountsFit(s)
  }

  const EmptyStore: Store := Store([], [], [], [], [])

  lemma EmptyStoreValid()
    ensures Valid(EmptyStore)
  {
  }

  // ---------------------------------------------------------------------
  // Inserts: what the database accepts on `save()` of a new row
  // ---------------------------------------------------------------------

  function TooManyDigits(): Exc { Exc(InvalidOperation, "amount exceeds max_digits=10") }
  function MissingReference(): Exc { Exc(IntegrityError, "FOREIGN KEY constraint failed") }
  function DuplicateKey(): Exc { Exc(IntegrityError, "UNIQUE constraint failed") }

  /** Saves a new plan; the amount must fit the column. */
  function CreatePlan(s: Store, p: Plan): (r: Outcome<(Store, nat)>)
    requires Valid(s)
    ensures r.Raised? <==> !FitsColumn(p.monthlyAmount)
    ensures r.Returned? ==>
      var (s', id) := r.value;
      && id !in Ids(s.plans)
      && s' == s.(plans := s.plans + [Row(id, p)])
      && Valid(s')
  {
    if !FitsColumn(p.monthlyAmount) then Raised(TooManyDigits())
    else
      var id := NextId(s.plans);
      AppendFresh(s.plans, Row(id, p));
      Returned((s.(plans := s.plans + [Row(id, p)]), id))
  }

  /** Saves a new enrollment. The status defaults to PENDING; the end date
      is optional, the start date is not. The plan must exist. */
  function CreateEnrollment(s: Store, plan: nat, employee: EmployeeId, broker: Option<BrokerId>,
                            status: Option<EnrollmentStatus>, startDate: Date, endDate: Option<Date>)
    : (r: Outcome<(Store, nat)>)
    requires Valid(s)
    ensures r.Raised? <==> plan !in Ids(s.plans)
    ensures r.Returned? ==>
      var (s', id) := r.value;
      && id !in Ids(s.enrollments)
      && |s'.enrollments| == |s.enrollments| + 1
      && s'.enrollments[..|s.enrollments|] == s.enrollments
      && s'.enrollments[|s.enrollments|] == Row(id, Enrollment(plan, employee, broker,
           if status.None? then Pending else status.value, startDate, endDate))
      && s' == s.(enrollments := s'.enrollments)
      && Valid(s')
  {
    if plan !in Ids(s.plans) then Raised(MissingReference())
    else
      var e := Enrollment(plan, employee, broker,
                          match status case None => DefaultEnrollmentStatus case Some(st) => st,
                          startDate, endDate);
      var id := NextId(s.enrollments);
      AppendFresh(s.enrollments, Row(id, e));
      var s' := s.(enrollments := s.enrollments + [Row(id, e)]);
      assert s'.enrollments[..|s.enrollments|] == s.enrollments;
      Returned((s', id))
  }

  /** Is there a row for this (enrollment, dependent) pair, ended or not? */
  predicate HasPair(deps: seq<Row<DependentEnrollment>>, enrollment: nat, dependent: DependentId) {
    exists i :: 0 <= i < |deps| && deps[i].val.enrollment == enrollment && deps[i].val.dependent == dependent
  }

  /** Saves a new dependent enrollment. The parent enrollment must exist and
      the (enrollment, dependent) pair must be new, even if the earlier row
      for the pair has been ended. */
  function CreateDependentEnrollment(s: Store, enrollment: nat, dependent: DependentId,
                                     startDate: Date, endDate: Option<Date>)
    : (r: Outcome<(Store, nat)>)
    requires Valid(s)
    ensures r.Raised? <==> enrollment !in Ids(s.enrollments) || HasPair(s.dependents, enrollment, dependent)
    ensures r.Raised? ==> r.exc.kind == IntegrityError
    ensures r.Returned? ==>
      var (s', id) := r.value;
      && id !in Ids(s.dependents)
      && s' == s.(dependents := s.dependents + [Row(id, DependentEnrollment(enrollment, dependent, startDate, endDate))])
      && Valid(s')
  {
    if enrollment !in Ids(s.enrollments) then Raised(MissingReference())
    else if HasPair(s.dependents, enrollment, dependent) then Raised(DuplicateKey())
    else
      var row := Row(NextId(s.dependents), DependentEnrollment(enrollment, dependent, startDate, endDate));
      AppendFresh(s.dependents, row);
      var s' := s.(dependents := s.dependents + [row]);
      assert DependentPairsUnique(s'.dependents) by {
        forall i, j | 0 <= i < j < |s'.dependents| ensures !SamePair(s'.dependents[i].val, s'.dependents[j].val) {
          if j == |s.dependents| {
            assert s'.dependents[i] == s.dependents[i];
          }
        }
      }
      Returned((s', row.id))
  }

  predicate HasReference(txs: seq<Row<Transaction>>, referenceId: string) {
    exists i :: 0 <= i < |txs| && txs[i].val.referenceId == referenceId
  }

  /** Saves a new transaction. The enrollment must exist, the reference id
      must be unused and the amount must fit the column. */
  function CreateTransaction(s: Store, t: Transaction): (r: Outcome<(Store, nat)>)
    requires Valid(s)
    ensures r.Raised? <==>
      t.enrollment !in Ids(s.enrollments) || HasReference(s.transactions, t.referenceId) || !FitsColumn(t.amount)
    ensures r.Returned? ==>
      var (s', id) := r.value;
      && id !in Ids(s.transactions)
      && s' == s.(transactions := s.transactions + [Row(id, t)])
      && Valid(s')
  {
    if !FitsColumn(t.amount) then Raised(TooManyDigits())
    else if t.enrollment !in Ids(s.enrollments) then Raised(MissingReference())
    else if HasReference(s.transactions, t.referenceId) then Raised(DuplicateKey())
    else
      var row := Row(NextId(s.transactions), t);
      AppendFresh(s.transactions, row);
      var s' := s.(transactions := s.transactions + [row]);
      assert ReferenceIdsUnique(s'.transactions) by {
        forall i, j | 0 <= i < j < |s'.transactions|
          ensures s'.transactions[i].val.referenceId != s'.transactions[j].val.referenceId
        {
          if j == |s.transactions| {
            assert s'.transactions[i] == s.transactions[i];
          }
        }
      }
      Returned((s', row.id))
  }

  /** The transaction a create request describes. Fields it leaves out
      take the model's defaults: status PENDING, no provider, no broker,
      empty notes. */
  function NewTransaction(enrollment: nat, kind: TransactionType, amount: Cents, status: Option<TransactionStatus>,
                          periodStart: Date, periodEnd: Date, provider: Option<ProviderId>, broker: Option<BrokerId>,
                          referenceId: string, notes: Option<string>): (t: Transaction)
    ensures status.None? ==> t.status == DefaultTransactionStatus && t.status.Code() == "PENDING"
    ensures status.Some? ==> t.status == status.value
    ensures notes.None? ==> t.notes == ""
    ensures notes.Some? ==> t.notes == notes.value
    ensures t.periodStart == periodStart && t.periodEnd == periodEnd
    ensures t.enrollment == enrollment && t.kind == kind && t.amount == amount && t.referenceId == referenceId
    ensures t.provider == provider && t.broker == broker
  {
    Transaction(enrollment, kind, amount,
                match status case None => DefaultTransactionStatus case Some(st) => st,
                periodStart, periodEnd, provider, broker, referenceId,
                match notes case None => "" case Some(n) => n)
  }

  /** A create request without a status that the database accepts stores a
      PENDING transaction as the newest row. */
  lemma NewTransactionSavedPending(s: Store, enrollment: nat, kind: TransactionType, amount: Cents,
                                   periodStart: Date, periodEnd: Date, referenceId: string)
    requires Valid(s)
    requires enrollment in Ids(s.enrollments) && FitsColumn(amount) && !HasReference(s.transactions, referenceId)
    ensures var r := CreateTransaction(s, NewTransaction(enrollment, kind, amount, None, periodStart, periodEnd,
                                                         None, None, referenceId, None));
      && r.Returned?
      && |r.value.0.transactions| == |s.transactions| + 1
      && r.value.0.transactions[|s.transactions|].val.status == PaymentPending
      && r.value.0.transactions[|s.transactions|].val.status.Code() == "PENDING"
  {
  }

  /** Saves a new detail line. Its transaction must exist, and so must the
      dependent enrollment it is linked to, if any. */
  function CreateDetail(s: Store, d: TransactionDetail): (r: Outcome<(Store, nat)>)
    requires Valid(s)
    ensures r.Raised? <==>
      || d.transaction !in Ids(s.transactions)
      || (d.dependentEnrollment.Some? && d.dependentEnrollment.value !in Ids(s.dependents))
      || !FitsColumn(d.amount)
    ensures r.Returned? ==>
      var (s', id) := r.value;
      && id !in Ids(s.details)
      && s' == s.(details := s.details + [Row(id, d)])
      && Valid(s')
  {
    if !FitsColumn(d.amount) then Raised(TooManyDigits())
    else if d.transaction !in Ids(s.transactions) then Raised(MissingReference())
    else if d.dependentEnrollment.Some? && d.dependentEnrollment.value !in Ids(s.dependents) then Raised(MissingReference())
    else
      var row := Row(NextId(s.details), d);
      AppendFresh(s.details, row);
      Returned((s.(details := s.details + [row]), row.id))
  }

  // ---------------------------------------------------------------------
  // Deletes: CASCADE and PROTECT
  // ---------------------------------------------------------------------

  function Refused(): Exc { Exc(ProtectedError, "Cannot delete some instances because they are referenced through protected foreign keys") }

  predicate PlanInUse(s: Store, plan: nat) {
    exists i :: 0 <= i < |s.enrollments| && s.enrollments[i].val.plan == plan
  }

  /** Deleting a plan is refused while an enrollment references it
      (`on_delete=PROTECT`); otherwise only the plan's row goes. */
  function DeletePlan(s: Store, plan: nat): (r: Outcome<Store>)
    requires Valid(s)
    ensures r.Raised? <==> PlanInUse(s, plan)
    ensures r.Returned? ==>
      && plan !in Ids(r.value.plans)
      && (forall x :: x in r.value.plans <==> x in s.plans && x.id != plan)
      && r.value == s.(plans := r.value.plans)
      && Valid(r.value)
  {
    if PlanInUse(s, plan) then Raised(Refused())
    else
      var plans := Where(s.plans, (x: Row<Plan>) => x.id != plan);
      NotInIds(plans, plan);
      PlanRemovalValid(s, plan);
      Returned(s.(plans := plans))
  }

  lemma PlanRemovalValid(s: Store, plan: nat)
    requires Valid(s) && !PlanInUse(s, plan)
    ensures Valid(s.(plans := Where(s.plans, (x: Row<Plan>) => x.id != plan)))
  {
    var keep := (x: Row<Plan>) => x.id != plan;
    var plans := Where(s.plans, keep);
    forall i | 0 <= i < |s.enrollments| ensures s.enrollments[i].val.plan in Ids(plans) {
      var k := IdIndex(s.plans, s.enrollments[i].val.plan);
      KeptKey(s.plans, keep, s.plans[k]);
    }
  }

  predicate EnrollmentBilled(s: Store, enrollment: nat) {
    exists i :: 0 <= i < |s.transactions| && s.transactions[i].val.enrollment == enrollment
  }

  /** Some detail line points at a dependent row of this enrollment. */
  predicate DependentsItemised(s: Store, enrollment: nat) {
    exists i, j :: 0 <= i < |s.details| && 0 <= j < |s.dependents| &&
      s.details[i].val.dependentEnrollment == Some(s.dependents[j].id) &&
      s.dependents[j].val.enrollment == enrollment
  }

  /** Deleting an enrollment is refused while a transaction references it,
      or while a detail line references one of the dependent rows the delete
      would cascade to; otherwise the enrollment and all of its dependent
      rows go, and nothing else changes. */
  function DeleteEnrollment(s: Store, enrollment: nat): (r: Outcome<Store>)
    requires Valid(s)
    ensures r.Raised? <==> EnrollmentBilled(s, enrollment) || DependentsItemised(s, enrollment)
    ensures r.Returned? ==>
      var s' := r.value;
      && enrollment !in Ids(s'.enrollments)
      && (forall x :: x in s'.enrollments <==> x in s.enrollments && x.id != enrollment)
      && (forall x :: x in s'.dependents <==> x in s.dependents && x.val.enrollment != enrollment)
      && s' == s.(enrollments := s'.enrollments, dependents := s'.dependents)
      && Valid(s')
  {
    if EnrollmentBilled(s, enrollment) || DependentsItemised(s, enrollment) then Raised(Refused())
    else
      var s' := s.(enrollments := Where(s.enrollments, (x: Row<Enrollment>) => x.id != enrollment),
                   dependents := Where(s.dependents, (x: Row<DependentEnrollment>) => x.val.enrollment != enrollment));
      NotInIds(s'.enrollments, enrollment);
      EnrollmentCascadeValid(s, enrollment);
      Returned(s')
  }

  lemma EnrollmentCascadeValid(s: Store, enrollment: nat)
    requires Valid(s)
    requires !EnrollmentBilled(s, enrollment) && !DependentsItemised(s, enrollment)
    ensures Valid(s.(enrollments := Where(s.enrollments, (x: Row<Enrollment>) => x.id != enrollment),
                     dependents := Where(s.dependents, (x: Row<DependentEnrollment>) => x.val.enrollment != enrollment)))
  {
    var keepE := (x: Row<Enrollment>) => x.id != enrollment;
    var keepD := (x: Row<DependentEnrollment>) => x.val.enrollment != enrollment;
    var enrollments := Where(s.enrollments, keepE);
    var dependents := Where(s.dependents, keepD);
    forall i | 0 <= i < |dependents| ensures dependents[i].val.enrollment in Ids(enrollments) {
      var k := IdIndex(s.enrollments, dependents[i].val.enrollment);
      KeptKey(s.enrollments, keepE, s.enrollments[k]);
    }
    forall i | 0 <= i < |s.transactions| ensures s.transactions[i].val.enrollment in Ids(enrollments) {
      var k := IdIndex(s.enrollments, s.transactions[i].val.enrollment);
      KeptKey(s.enrollments, keepE, s.enrollments[k]);
    }
    forall i | 0 <= i < |s.details| && s.details[i].val.dependentEnrollment.Some?
      ensures s.details[i].val.dependentEnrollment.value in Ids(dependents)
    {
      var j := IdIndex(s.dependents, s.details[i].val.dependentEnrollment.value);
      KeptKey(s.dependents, keepD, s.dependents[j]);
    }
    SubsequencePairsUnique(s.dependents, keepD);
  }

  /** Filtering keeps (enrollment, dependent) pairs unique. */
  lemma {:induction false} SubsequencePairsUnique(deps: seq<Row<DependentEnrollment>>, keep: Row<DependentEnrollment> -> bool)
    requires DependentPairsUnique(deps)
    ensures DependentPairsUnique(Where(deps, keep))
    decreases |deps|
  {
    if |deps| > 0 {
      var tail := deps[1..];
      assert DependentPairsUnique(tail) by {
        forall i, j | 0 <= i < j < |tail| ensures !SamePair(tail[i].val, tail[j].val) {
          assert tail[i] == deps[i + 1] && tail[j] == deps[j + 1];
        }
      }
      SubsequencePairsUnique(tail, keep);
      var rest := Where(tail, keep);
      if keep(deps[0]) {
        assert Where(deps, keep) == [deps[0]] + rest;
        forall k | 0 <= k < |rest| ensures !SamePair(deps[0].val, rest[k].val) {
          var m := RowIndex(tail, rest[k]);
          assert deps[m + 1] == rest[k];
        }
        PairsUniqueCons(deps[0], rest);
      } else {
        assert Where(deps, keep) == rest;
      }
    }
  }

  /** A row whose pair no later row repeats can head a pair-unique table. */
  lemma PairsUniqueCons(d: Row<DependentEnrollment>, rest: seq<Row<DependentEnrollment>>)
    requires DependentPairsUnique(rest)
    requires forall k :: 0 <= k < |rest| ==> !SamePair(d.val, rest[k].val)
    ensures DependentPairsUnique([d] + rest)
  {
    var r := [d] + rest;
    forall i, j | 0 <= i < j < |r| ensures !SamePair(r[i].val, r[j].val) {
      assert r[j] == rest[j - 1];
      if i > 0 {
        assert r[i] == rest[i - 1];
      }
    }
  }


  predicate DependentItemised(s: Store, dep: nat) {
    exists i :: 0 <= i < |s.details| && s.details[i].val.dependentEnrollment == Some(dep)
  }

  /** Deleting a dependent enrollment is refused while a detail line
      references it. */
  function DeleteDependentEnrollment(s: Store, dep: nat): (r: Outcome<Store>)
    requires Valid(s)
    ensures r.Raised? <==> DependentItemised(s, dep)
    ensures r.Returned? ==>
      && dep !in Ids(r.value.dependents)
      && (forall x :: x in r.value.dependents <==> x in s.dependents && x.id != dep)
      && r.value == s.(dependents := r.value.dependents)
      && Valid(r.value)
  {
    if DependentItemised(s, dep) then Raised(Refused())
    else
      var dependents := Where(s.dependents, (x: Row<DependentEnrollment>) => x.id != dep);
      NotInIds(dependents, dep);
      DependentRemovalValid(s, dep);
      Returned(s.(dependents := dependents))
  }

  lemma DependentRemovalValid(s: Store, dep: nat)
    requires Valid(s) && !DependentItemised(s, dep)
    ensures Valid(s.(dependents := Where(s.dependents, (x: Row<DependentEnrollment>) => x.id != dep)))
  {
    var keep := (x: Row<DependentEnrollment>) => x.id != dep;
    var dependents := Where(s.dependents, keep);
    forall i | 0 <= i < |s.details| && s.details[i].val.dependentEnrollment.Some?
      ensures s.details[i].val.dependentEnrollment.value in Ids(dependents)
    {
      var j := IdIndex(s.dependents, s.details[i].val.dependentEnrollment.value);
      KeptKey(s.dependents, keep, s.dependents[j]);
    }
    SubsequencePairsUnique(s.dependents, keep);
  }

  /** Deleting a transaction also deletes its detail lines; nothing refuses
      it, since no PROTECT key points at transactions or details. */
  function DeleteTransaction(s: Store, txn: nat): (s': Store)
    requires Valid(s)
    ensures txn !in Ids(s'.transactions)
    ensures forall x :: x in s'.transactions <==> x in s.transactions && x.id != txn
    ensures forall x :: x in s'.details <==> x in s.details && x.val.transaction != txn
    ensures s' == s.(transactions := s'.transactions, details := s'.details)
    ensures Valid(s')
  {
    var s' := s.(transactions := Where(s.transactions, (x: Row<Transaction>) => x.id != txn),
                 details := Where(s.details, (x: Row<TransactionDetail>) => x.val.transaction != txn));
    NotInIds(s'.transactions, txn);
    TransactionCascadeValid(s, txn);
    s'
  }

  lemma TransactionCascadeValid(s: Store, txn: nat)
    requires Valid(s)
    ensures Valid(s.(transactions := Where(s.transactions, (x: Row<Transaction>) => x.id != txn),
                     details := Where(s.details, (x: Row<TransactionDetail>) => x.val.transaction != txn)))
  {
    var keepT := (x: Row<Transaction>) => x.id != txn;
    var keepD := (x: Row<TransactionDetail>) => x.val.transaction != txn;
    var transactions := Where(s.transactions, keepT);
    var details := Where(s.details, keepD);
    forall i | 0 <= i < |details| ensures details[i].val.transaction in Ids(transactions) {
      var k := IdIndex(s.transactions, details[i].val.transaction);
      KeptKey(s.transactions, keepT, s.transactions[k]);
    }
    SubsequenceReferencesUnique(s.transactions, keepT);
  }

  /** Filtering keeps reference ids unique. */
  lemma {:induction false} SubsequenceReferencesUnique(txs: seq<Row<Transaction>>, keep: Row<Transaction> -> bool)
    requires ReferenceIdsUnique(txs)
    ensures ReferenceIdsUnique(Where(txs, keep))
    decreases |txs|
  {
    if |txs| > 0 {
      var tail := txs[1..];
      assert ReferenceIdsUnique(tail) by {
        forall i, j | 0 <= i < j < |tail| ensures tail[i].val.referenceId != tail[j].val.referenceId {
          assert tail[i] == txs[i + 1] && tail[j] == txs[j + 1];
        }
      }
      SubsequenceReferencesUnique(tail, keep);
      var rest := Where(tail, keep);
      if keep(txs[0]) {
        assert Where(txs, keep) == [txs[0]] + rest;
        forall k | 0 <= k < |rest| ensures rest[k].val.referenceId != txs[0].val.referenceId {
          var m := RowIndex(tail, rest[k]);
          assert txs[m + 1] == rest[k];
        }
        ReferencesUniqueCons(txs[0], rest);
      } else {
        assert Where(txs, keep) == rest;
      }
    }
  }

  /** A row whose reference id no later row repeats can head a table with
      unique reference ids. */
  lemma ReferencesUniqueCons(t: Row<Transaction>, rest: seq<Row<Transaction>>)
    requires ReferenceIdsUnique(rest)
    requires forall k :: 0 <= k < |rest| ==> rest[k].val.referenceId != t.val.referenceId
    ensures ReferenceIdsUnique([t] + rest)
  {
    var r := [t] + rest;
    forall i, j | 0 <= i < j < |r| ensures r[i].val.referenceId != r[j].val.referenceId {
      assert r[j] == rest[j - 1];
      if i > 0 {
        assert r[i] == rest[i - 1];
      }
    }
  }


  /** Deleting a detail line removes only that line. */
  function DeleteDetail(s: Store, detail: nat): (s': Store)
    requires Valid(s)
    ensures detail !in Ids(s'.details)
    ensures forall x :: x in s'.details <==> x in s.details && x.id != detail
    ensures s' == s.(details := s'.details)
    ensures Valid(s')
  {
    var details := Where(s.details, (x: Row<TransactionDetail>) => x.id != detail);
    NotInIds(details, detail);
    s.(details := details)
  }
}

=== FILE: table.dfy ===
/** A database table as a sequence of rows, each carrying its primary key.
    Row order is insertion order; the tables in this model declare no
    default ordering, so nothing depends on it beyond determinism. */
module Table {

  import opened Http

  datatype Row<T> = Row(id: nat, val: T)

  /** Primary keys are unique. */
  predicate UniqueIds<T>(rows: seq<Row<T>>) {
    forall i, j :: 0 <= i < j < |rows| ==> rows[i].id != rows[j].id
  }

  function Ids<T>(rows: seq<Row<T>>): set<nat> {
    set i | 0 <= i < |rows| :: rows[i].id
  }

  /** The key the next insert receives: one larger than the largest key
      now in the table, so no current row carries it. */
  function NextId<T>(rows: seq<Row<T>>): (r: nat)
    ensures forall i :: 0 <= i < |rows| ==> rows[i].id < r
    ensures r !in Ids(rows)
  {
    if |rows| == 0 then 1
    else
      var rest := NextId(rows[1..]);
      assert forall i :: 1 <= i < |rows| ==> rows[i] == rows[1..][i - 1];
      if rows[0].id < rest then rest else rows[0].id + 1
  }

  /** Appending a row under a fresh key keeps keys unique. */
  lemma AppendFresh<T>(rows: seq<Row<T>>, row: Row<T>)
    requires UniqueIds(rows)
    requires row.id !in Ids(rows)
    ensures UniqueIds(rows + [row])
    ensures Ids(rows + [row]) == Ids(rows) + {row.id}
  {
    var r := rows + [row];
    forall i, j | 0 <= i < j < |r|
      ensures r[i].id != r[j].id
    {
      if j == |rows| {
        assert r[i].id in Ids(rows);
      }
    }
    assert forall k :: k in Ids(r) ==> k in Ids(rows) + {row.id} by {
      forall k | k in Ids(r) ensures k in Ids(rows) + {row.id} {
        var i :| 0 <= i < |r| && r[i].id == k;
        if i < |rows| { assert rows[i].id == k; }
      }
    }
    assert forall k :: k in Ids(rows) + {row.id} ==> k in Ids(r) by {
      forall k | k in Ids(rows) + {row.id} ensures k in Ids(r) {
        if k == row.id {
          assert r[|rows|].id == k;
        } else {
          var i :| 0 <= i < |rows| && rows[i].id == k;
          assert r[i].id == k;
        }
      }
    }
  }

  /** The keys of a non-empty table are its first key and the keys of the rest. */
  lemma IdsCons<T>(rows: seq<Row<T>>)
    requires |rows| > 0
    ensures Ids(rows) == {rows[0].id} + Ids(rows[1..])
    ensures UniqueIds(rows) ==> UniqueIds(rows[1..]) && rows[0].id !in Ids(rows[1..])
  {
    forall k | k in Ids(rows) ensures k in {rows[0].id} + Ids(rows[1..]) {
      var i :| 0 <= i < |rows| && rows[i].id == k;
      if i > 0 { assert rows[1..][i - 1].id == k; }
    }
    forall k | k in Ids(rows[1..]) ensures k in Ids(rows) {
      var i :| 0 <= i < |rows[1..]| && rows[1..][i].id == k;
      assert rows[i + 1].id == k;
    }
    if UniqueIds(rows) {
      forall i | 0 <= i < |rows[1..]| ensures rows[1..][i].id != rows[0].id {
        assert rows[1..][i] == rows[i + 1];
      }
    }
  }

  /** Putting a row with a key not yet used in front of a table keeps keys unique. */
  lemma ConsFresh<T>(row: Row<T>, rows: seq<Row<T>>)
    requires UniqueIds(rows)
    requires row.id !in Ids(rows)
    ensures UniqueIds([row] + rows)
  {
    var r := [row] + rows;
    forall i, j | 0 <= i < j < |r| ensures r[i].id != r[j].id {
      assert r[j] == rows[j - 1];
      if i == 0 {
        assert r[j].id in Ids(rows);
      } else {
        assert r[i] == rows[i - 1];
      }
    }
  }

  /** The rows that `keep` selects, in their original order (a queryset
      filter, or the rows left behind by a delete). */
  function Where<T(!new)>(rows: seq<Row<T>>, keep: Row<T> -> bool): (r: seq<Row<T>>)
    ensures forall x :: x in r <==> x in rows && keep(x)
    ensures forall i :: 0 <= i < |r| ==> keep(r[i]) && r[i] in rows
    ensures |r| <= |rows|
    ensures UniqueIds(rows) ==> UniqueIds(r)
    ensures Ids(r) <= Ids(rows)
  {
    if |rows| == 0 then []
    else
      var rest := Where(rows[1..], keep);
      IdsCons(rows);
      assert forall x :: x in rows[1..] ==> x in rows;
      if keep(rows[0]) then
        var r := [rows[0]] + rest;
        IdsCons(r);
        assert r[1..] == rest;
        if UniqueIds(rows) then ConsFresh(rows[0], rest); r else r
      else
        rest
  }

  /** The position of a key among the table's rows. */
  lemma IdIndex<T>(rows: seq<Row<T>>, k: nat) returns (i: int)
    requires k in Ids(rows)
    ensures 0 <= i < |rows| && rows[i].id == k
  {
    i :| 0 <= i < |rows| && rows[i].id == k;
  }

  /** The position of a row in the table. */
  lemma RowIndex<T>(rows: seq<Row<T>>, x: Row<T>) returns (i: int)
    requires x in rows
    ensures 0 <= i < |rows| && rows[i] == x
  {
    i :| 0 <= i < |rows| && rows[i] == x;
  }

  /** A key no row carries is not among the table's keys. */
  lemma NotInIds<T>(rows: seq<Row<T>>, k: nat)
    requires forall i :: 0 <= i < |rows| ==> rows[i].id != k
    ensures k !in Ids(rows)
  {
  }

  /** A row that the filter keeps keeps its key. */
  lemma KeptKey<T(!new)>(rows: seq<Row<T>>, keep: Row<T> -> bool, x: Row<T>)
    requires x in rows && keep(x)
    ensures x.id in Ids(Where(rows, keep))
  {
    var r := Where(rows, keep);
    assert x in r;
    var i :| 0 <= i < |r| && r[i] == x;
  }
}
